=== FILE: README.md ===
# Portfolio site core, modelled in Dafny

This project models the part of a personal portfolio web application that
holds actual decision logic:

- the F1 statistics client (`app/lib/f1.ts`). It turns validated Ergast/Jolpica
  records into the dashboard's domain objects: drivers, teams, results, lap
  times, qualifying and the schedule. It also colours teams from a fixed table,
  picks the upstream path for each request, and builds a driver's season
  history by merging race and sprint results in round order.
- the three chat relays:
  - the OTF agent relay (`app/api/otf-chat/route.ts`): a password gate, then a
    JSON-RPC `tasks/send` envelope, then extraction of the reply text;
  - the psychology chat relay (`app/api/psychology/chat/route.ts`): a message
    and port check, then forwarding to one of two EC2 backends;
  - the psychology health probe (`app/api/psychology/health/route.ts`): a
    query-parameter port check, then forwarding to the backend's `/health`.

Upstream records are immutable datatypes shaped like the schemas after
validation (`F1Records`). Domain objects live in `F1Domain`, and every client
method body except `getDriverResults` is a pure function in `F1Mapper`;
`getDriverResults` is modelled in `DriverResults`. The history is built by a method
with a loop (`DriverResults.DriverHistory`) over an insertion sort that meets
the stable-sort contract of section 23.1.3.30 of ECMA-262 (`RoundSort`).

Each route handler is a pure function, `Handle`. It takes the parsed request
body (or its parse error) and the abstract outcome of the one upstream call:
a status with a parsed or unparsable body, or a thrown error. It returns an
`Exchange`, which holds the upstream call the handler would make (method, URL,
body, timeout) and the status and JSON body it replies with. JSON values are
the `Json` datatype. JavaScript truthiness, `?.` property access and `[0]` are
modelled explicitly in `Json`, because the handlers' decisions hinge on them.

`parseInt` is modelled on digit strings (`Numbers.ParseNat`). `parseFloat` is
modelled as the exact decimal value of a decimal string (`Numbers.ParseDecimal`).
The module-level configuration of the OTF relay (agent URL and password) and
`Date.now()` are parameters.

- The OTF relay does not check `response.ok`: an error status with a JSON body
  is relayed as a normal 200 reply (`OtfChat.ErrorStatusIsRelayed`).
- The F1 client throws when a driver standing has no constructor, or when the
  last-race results read by `getCurrentSeason` hold no race; the model gives
  `None` for these.

## Model

| member | source | states |
|---|---|---|
| TeamColors.TeamColor | app/lib/f1.ts:313-324 | Every colour is a #RRGGBB string; the default #666666 is given exactly to ids whose lower-cased form is not one of the ten table keys, and a known id gets its table colour |
| TeamColors.TeamColorIgnoresCase | app/lib/f1.ts:348-350 | An id and its lower-cased form always get the same colour |
| TeamColors.LowerIdempotent | app/lib/f1.ts:348-350 | Lower-casing an id twice is the same as lower-casing it once |
| TeamColors.FerrariInAnyCase | app/lib/f1.ts:313-324 | "Ferrari", "FERRARI" and "ferrari" all get Ferrari red #F91536 |
| TeamColors.TeamColorAsWritten | app/lib/f1.ts:348-350 | The lookup as written, on a plain object with a prototype, agrees with the corrected lookup for every id whose lower-cased form is not an inherited Object.prototype member name |
| TeamColors.InheritedHits | app/lib/f1.ts:348-350 | The lookup as written returns an inherited member exactly for the ids that lower-case to "constructor" or "__proto__" |
| TeamColors.ConstructorIdIsNotDefault | app/lib/f1.ts:348-350 | Counterexample: the id "Constructor" gets Object's constructor function, not the default colour, while the corrected lookup gives #666666 |
| TeamColors.MixedCaseMembers | app/lib/f1.ts:348-350 | Ten of the twelve inherited member names contain an upper-case letter, so no lower-cased id can reach them |
| TeamColors.LowerCaseMembers | app/lib/f1.ts:348-350 | The only inherited member names without upper-case letters are "constructor" and "__proto__" |
| TeamColors.LowerConstructor | app/lib/f1.ts:348-350 | "Constructor" lower-cases to "constructor" |
| F1Endpoints.SeasonSegment | app/lib/f1.ts:359 | An absent or empty season selects "current"; any other season is used verbatim; the segment is never empty |
| F1Endpoints.StandingsSegmentRoundTrip | app/lib/f1.ts:359 | The season segment read back from a driver or constructor standings path is the segment the path was built from |
| F1Endpoints.StandingsEndpointInjective | app/lib/f1.ts:387 | Two seasons give the same standings path if and only if they select the same segment |
| F1Endpoints.CurrentSeasonAliases | app/lib/f1.ts:386-387 | An absent season, an empty season and "current" all give the same driver path and the same constructor path |
| F1Endpoints.StandingsEndpointsDistinct | app/lib/f1.ts:359 | A driver standings path never equals a constructor standings path, whatever the two seasons |
| F1Endpoints.FetchQuery | app/lib/f1.ts:333-337 | Without a `path` parameter the query is the caller's parameters in order followed by `path`; with one, that entry alone is overwritten where it stands |
| F1Endpoints.FetchQueryLookup | app/lib/f1.ts:333-337 | The query sends the endpoint as `path`, and every other parameter with the value the caller gave |
| F1Endpoints.Endpoint | app/lib/f1.ts:353-525 | Every path the client asks its proxy for starts with '/' |
| F1Endpoints.CurrentSeasonReadsLastResults | app/lib/f1.ts:353 | The current season is read from the same path as the last race's results, not from the schedule or the qualifying |
| F1Endpoints.HistoryQueries | app/lib/f1.ts:521-526 | The two history requests send the same decimal `limit`; one sends the driver's results.json path and the other the driver's sprint.json path |
| F1Endpoints.HistoryEndpointsDistinct | app/lib/f1.ts:524-525 | The race-results and sprint-results paths of a driver differ |
| F1Mapper.FinishTimeOf | app/lib/f1.ts:434-437 | An absent time stays absent; a present time keeps its display string verbatim and has 0 ms when `millis` is absent or empty, else the parsed count |
| F1Mapper.FinishTimeRoundTrip | app/lib/f1.ts:434-437 | A finish time written as the API writes it (decimal millis) maps back to itself |
| F1Mapper.MissingMillisIsZero | app/lib/f1.ts:435 | An absent, empty or "0" millis all give 0 ms with the display string kept |
| F1Mapper.EmbeddedTeamRoundTrip | app/lib/f1.ts:371-379 | A team maps back to itself from its constructor record exactly when its standings fields are 0 and its colour is the table's |
| F1Mapper.FastestLapRoundTrip | app/lib/f1.ts:438-445 | A fastest lap written back, with any decimal text denoting its average speed, maps back to itself |
| F1Mapper.FastestLapOf | app/lib/f1.ts:438-445 | An absent fastest lap stays absent; a present one has its lap parsed, its time present exactly when the upstream time is, and its average speed present exactly when the upstream speed is, with units kept |
| F1Mapper.MapDriverStandings | app/lib/f1.ts:364-383 | Mapping fails exactly when some standing lists no constructor; otherwise one driver per standing, in order |
| F1Mapper.DriverStandings | app/lib/f1.ts:358-384 | No standings list gives an empty list; otherwise one driver per standing, in order, with id, number, code, names and nationality copied from the standing's driver, parsed position/points/wins, and a team whose id, name and nationality come from the first constructor, with zero standings fields and the table colour |
| F1Mapper.StandingExample | app/lib/f1.ts:380-382 | A standing with position "1", points "25.0" and wins "1" maps to one driver with 1, 25 and 1 |
| F1Mapper.StandingNumbers | app/lib/f1.ts:380-382 | "1" parses to 1 and "25.0" to 25 |
| F1Mapper.DriverStandingRoundTrip | app/lib/f1.ts:358-384 | A driver with a team at 0 and the table colour, written back as a standing with any decimal text for its points, maps back to itself |
| F1Mapper.ConstructorStandings | app/lib/f1.ts:386-401 | No standings list gives an empty list; otherwise one team per standing, in order, with name, nationality, parsed position/points/wins and the table colour |
| F1Mapper.ConstructorStandingRoundTrip | app/lib/f1.ts:386-401 | A team with the table colour, written back as the only standing of a list with any decimal text for its points (fractional points included), maps back to itself |
| F1Mapper.LastRaceResults | app/lib/f1.ts:403-447 | One result per row of the first race, in order, with parsed position/grid/laps/points, the status verbatim, mapped time and fastest lap, and the embedded driver's standings fields at 0 |
| F1Mapper.RaceResultRoundTrip | app/lib/f1.ts:403-447 | A result whose driver carries zero standings fields and a team at 0 with the table colour, written back as the last race's only row, maps back to itself |
| F1Mapper.LapTimesRoundTrip | app/lib/f1.ts:449-462 | Any list of laps, written back as the laps of a race, maps back to itself |
| F1Mapper.LapTimes | app/lib/f1.ts:449-462 | One lap per upstream lap of the first race, each with one timing per upstream timing, in order, with the driver id and time kept and the position parsed |
| F1Mapper.QualifyingRoundTrip | app/lib/f1.ts:464-495 | A qualifying result whose driver is embedded as the rows embed it, written back as the only row, maps back to itself |
| F1Mapper.LastQualifying | app/lib/f1.ts:464-495 | One result per upstream row, in order, with the position parsed and Q1..Q3 passed through unchanged, absence included |
| F1Mapper.SeasonSchedule | app/lib/f1.ts:497-519 | One race per upstream race, in order, with the circuit name, locality and country taken from the circuit record, and the five sessions copied as they are |
| F1Mapper.ScheduleRoundsRoundTrip | app/lib/f1.ts:502 | Rendering a mapped round gives back the upstream round string when it has no leading zero |
| F1Mapper.CurrentSeason | app/lib/f1.ts:352-356 | The current season is the first race's season, and there is none exactly when there is no race |
| Numbers.NatToString | app/lib/f1.ts:525 | The decimal rendering of a number is a digit string without a leading zero that parses back to the number |
| Numbers.ParseThenRender | app/lib/f1.ts:380 | Parsing then rendering a digit string without a leading zero gives it back |
| RoundSort.Sort | app/lib/f1.ts:534-537 | The sort result is ordered by key, is a permutation of the input, and keeps the input order within each key |
| RoundSort.StableSortIsUnique | app/lib/f1.ts:537 | Two key-ordered sequences with the same per-key groups are equal, so any sort meeting the stable-sort contract gives the same result |
| RoundSort.SortSortedIsIdentity | app/lib/f1.ts:537 | Sorting an already ordered sequence returns it unchanged |
| RoundSort.SortIdempotent | app/lib/f1.ts:537 | Sorting twice gives the same result as sorting once |
| RoundSort.InsertSorted | app/lib/f1.ts:537 | Inserting into an ordered sequence keeps it ordered |
| RoundSort.InsertPermutes | app/lib/f1.ts:537 | Inserting adds exactly the one element |
| RoundSort.InsertGroups | app/lib/f1.ts:537 | Inserting an element places it first within its key group and leaves every other group unchanged |
| RoundSort.WithKeyMembers | app/lib/f1.ts:537 | An element is in a key group exactly when it is in the sequence and has that key |
| RoundSort.WithKeyAppend | app/lib/f1.ts:534-537 | The key group of a concatenation is the concatenation of the key groups |
| DriverResults.RoundGroup | app/lib/f1.ts:534-537 | The entries of one round in the sorted list are that round's races in the race response's order, then its sprints in the sprint response's order |
| DriverResults.Tagged | app/lib/f1.ts:535-536 | Tagging keeps every race, in order, with its origin flag and its parsed round as sort key |
| DriverResults.MergedFacts | app/lib/f1.ts:534-536 | In the merged list every key is the entry's own round, and within a round every race comes before every sprint |
| DriverResults.AllRacesOrdered | app/lib/f1.ts:534-537 | The merged list keeps every race and sprint, rounds never decrease, a race precedes the sprint of the same round, and sorting it again changes nothing |
| DriverResults.EntryMatchesLastRace | app/lib/f1.ts:541-580 | An entry's row is the row the last-race mapping gives for the same first result (parsed position, grid, laps, driver, team and colour, finish time, fastest lap), with the driver's points set from the result and the status prefixed by "Sprint: " for a sprint |
| DriverResults.EntryResult | app/lib/f1.ts:541-580 | A race entry keeps its first result's status; a sprint entry's status is "Sprint: " followed by it; the points and the driver's points are the parsed result points |
| DriverResults.ContributingMembers | app/lib/f1.ts:540-541 | An entry contributes a result exactly when it is in the list and has at least one result |
| DriverResults.ContributingSort | app/lib/f1.ts:537-541 | Sorting does not change how many entries contribute a result |
| DriverResults.ContributingOrdered | app/lib/f1.ts:539-541 | Dropping the entries without results keeps round order, races before sprints of the same round, and every entry's key |
| DriverResults.HistoryCount | app/lib/f1.ts:534-541 | The number of contributing entries is the number of races with results plus the number of sprints with results |
| DriverResults.DriverHistory | app/lib/f1.ts:521-584 | The history holds, in merged round order, exactly one result for each race or sprint that has results: that entry's first result, with the sprint status prefix; so it is never longer than races and sprints together |
| DriverResults.HistoryOrdered | app/lib/f1.ts:534-541 | The entries behind the history have non-decreasing rounds, and within one numeric round a race's result precedes every sprint result |
| Json.Prop | app/api/otf-chat/route.ts:52-55 | A property is found exactly on an object that has the key, and the value found is that key's value |
| Json.First | app/api/otf-chat/route.ts:52-55 | `?.[0]` of a non-empty array is its first element and of an empty one undefined; of an object it is property "0"; of a non-empty string its first character and of an empty one undefined; of undefined, null, a boolean or a number it is undefined |
| Http.HttpErrorMessageRoundTrip | app/api/psychology/chat/route.ts:35-37 | The upstream status can be read back from the "HTTP error! status: " message |
| OtfChat.EnvelopeIsRequest | app/api/otf-chat/route.ts:22-39 | The envelope is a JSON-RPC 2.0 Request object (section 4 of the JSON-RPC 2.0 Specification) for "tasks/send" that carries an id, so it is not a notification |
| OtfChat.EnvelopeRoundTrip | app/api/otf-chat/route.ts:22-39 | The agent reads back exactly one text part holding the message verbatim, role "user", and the same id at the top level and in `params` |
| OtfChat.PartTexts | app/api/otf-chat/route.ts:31-36 | The text parts read out of a parts array are never more than its elements |
| OtfChat.ReplyText | app/api/otf-chat/route.ts:51-56 | For every reply: a truthy artifact text wins; otherwise a truthy message text; otherwise the fallback "Sorry, no response."; so the reply text is never falsy |
| OtfChat.ArtifactReplyText | app/api/otf-chat/route.ts:52-53 | A non-empty artifact text becomes the reply; an empty one falls through to the fallback |
| OtfChat.MessageReplyTextExtracted | app/api/otf-chat/route.ts:54-55 | A non-empty status-message text becomes the reply when there is no artifact |
| OtfChat.ArtifactBeforeMessage | app/api/otf-chat/route.ts:52-55 | With both shapes present the artifact text wins unless it is empty, in which case the message text is used |
| OtfChat.EmptyReplyText | app/api/otf-chat/route.ts:51 | A reply with neither shape gets the fallback "Sorry, no response." |
| OtfChat.Handle | app/api/otf-chat/route.ts:12-63 | 401 exactly when the body parses to something other than null and its password is missing or wrong; 400 exactly when the password is right and the message is not a non-empty string; the agent is called exactly when both pass, with the envelope of the message; 200 with `aiText` and `raw` exactly when the agent answers with JSON; every other outcome is 500 "Failed to contact OTF agent." |
| OtfChat.PasswordCheckedFirst | app/api/otf-chat/route.ts:15-19 | A wrong or missing password gives 401 with no agent call, whatever the message, including none |
| OtfChat.ErrorStatusIsRelayed | app/api/otf-chat/route.ts:41-58 | An agent reply with an error status and a JSON body still yields 200 |
| PsychologyBackends.PortStrings | app/api/psychology/chat/route.ts:4-5 | The research and resources ports render as "8000" and "10000" |
| PsychologyBackends.BackendUrlsDistinct | app/api/psychology/chat/route.ts:19-20 | The two backends never share a URL for the same route |
| PsychologyChat.TargetPort | app/api/psychology/chat/route.ts:19 | The selected backend port is the requested port number, and it is one of the two backends |
| PsychologyChat.ForwardedBodyRoundTrip | app/api/psychology/chat/route.ts:10 | The backend reads back the message unchanged, and `reset_memory` as sent, or false when it was omitted |
| PsychologyChat.Handle | app/api/psychology/chat/route.ts:7-51 | 400 with no upstream call exactly when the message is falsy or the port is not the number 8000 or 10000; otherwise a POST to the chosen backend's /chat with a 30 s timeout; 200 with the backend JSON unchanged exactly on an ok, parsable reply; a non-ok status, a throw or a parse failure gives 500 "Chat request failed" with the matching details |
| PsychologyChat.StringPortRefused | app/api/psychology/chat/route.ts:12-16 | A port sent as a string, "8000" included, is refused with 400 and no upstream call |
| PsychologyChat.ChatTargets | app/api/psychology/chat/route.ts:19-20 | Port 8000 calls http://ec2-54-91-100-129.compute-1.amazonaws.com:8000/chat and port 10000 calls the same host on :10000/chat |
| PsychologyChat.ChatUrls | app/api/psychology/chat/route.ts:20 | The two chat URLs written out |
| PsychologyHealth.TargetPort | app/api/psychology/health/route.ts:15 | The selected port renders back to the query parameter, and it is one of the two backends |
| PsychologyHealth.Handle | app/api/psychology/health/route.ts:7-45 | 400 "Invalid port parameter" with no upstream call exactly when the parameter is not "8000" or "10000"; otherwise a GET of the backend's /health with a 10 s timeout; 200 with the backend JSON unchanged exactly on an ok, parsable reply; every 500 body names the selected numeric port and the error details |
| PsychologyHealth.ParseThenRenderPort | app/api/psychology/health/route.ts:15 | A valid port parameter is a digit string that parses to the port it selects |
| PsychologyHealth.HealthTargets | app/api/psychology/health/route.ts:15-16 | "8000" probes http://ec2-54-91-100-129.compute-1.amazonaws.com:8000/health and "10000" the same host on :10000/health |
| PsychologyHealth.HealthUrls | app/api/psychology/health/route.ts:16 | The two health URLs written out |
| PsychologyHealth.NearMissPortsRefused | app/api/psychology/health/route.ts:11-12 | "08000", "8000.0" and an absent parameter are refused with 400 and no upstream call |

## Left out

- Schema validation with Zod (app/lib/f1.ts:7-229): the records are the validated shapes. Each mapper requires only the parse facts its body relies on, such as digit strings where `parseInt` is applied.
- `fetch`, `URLSearchParams` percent-encoding, request headers, `AbortSignal.timeout` and `response.json()` are not modelled. A handler's call is recorded as data, and its outcome is a parameter. A timeout is a thrown error.
- `parseInt` on non-digit strings (NaN) and binary64 rounding in `parseFloat` are not modelled. Numbers are exact.
- F1Mapper.DriverStandings: the F1Client method throws a TypeError when a standing has no constructor; the model returns `None` rather than modelling the exception.
- F1Mapper.CurrentSeason: the F1Client method throws when the race list is empty; the model returns `None`.
- F1Client's network methods (`fetchData` beyond its query, `getCurrentSeason`'s fetch) are not modelled: only the mapping after a successful parse is.
- MRData metadata fields (series, limit, offset, total) are not modelled, because no mapping reads them.
- TeamColors.Lower: `toLowerCase` is modelled for ASCII letters and the Kelvin sign only; every other character is kept as it is, where JavaScript would lower-case letters such as "É" to "é". Every other non-ASCII character lower-cases to a string holding a non-ASCII character (for example "İ" to "i" followed by U+0307), so its id cannot reach a table key or an inherited member name either way, and the colour is the same.
- F1Mapper.DriverStandings: colours teams with the corrected lookup `TeamColors.TeamColor` of the Findings row; for an id that lower-cases to "constructor" or "__proto__" the code as written gives an inherited value, not "#666666".
- F1Mapper.ConstructorStandings: colours teams with the corrected lookup `TeamColors.TeamColor` of the Findings row; for an id that lower-cases to "constructor" or "__proto__" the code as written gives an inherited value, not "#666666".
- F1Mapper.LastRaceResults: colours teams with the corrected lookup `TeamColors.TeamColor` of the Findings row; for an id that lower-cases to "constructor" or "__proto__" the code as written gives an inherited value, not "#666666".
- F1Mapper.LastQualifying: colours teams with the corrected lookup `TeamColors.TeamColor` of the Findings row; for an id that lower-cases to "constructor" or "__proto__" the code as written gives an inherited value, not "#666666".
- DriverResults.DriverHistory: colours teams with the corrected lookup `TeamColors.TeamColor` of the Findings row; for an id that lower-cases to "constructor" or "__proto__" the code as written gives an inherited value, not "#666666".
- `Date.now()` is the parameter `now`. The OTF relay's configured URL and password are parameters, and the module-load checks that they are set become a precondition that they are non-empty.
- PsychologyChat.Handle: the message of the TypeError raised when destructuring a `null` body belongs to the JavaScript engine, so it is a parameter.
- Console logging in every handler is left out, because it has no effect on the response.
- The F1 proxy route (`app/api/f1/route.ts`) is not part of this model: it forwards a path and maps any failure to 500, with no other decision logic.
- The React pages and components, the Spotify, Daily and Python API files, and the site configuration are not part of this model: they are presentation and third-party calls.
- `app/components/f1-race-weekend.tsx` is not part of this model: it refers to client methods that do not exist.

## Findings

| source | as written | input that shows it | evidently intended | confidence | as-written member | corrected member |
|---|---|---|---|---|---|---|
| app/lib/f1.ts:348-350 | `TEAM_COLORS[id.toLowerCase()] \|\| '#666666'` indexes a plain object literal, so inherited Object.prototype members are found too | constructor id "Constructor" (or "__proto__") | ids that are not table keys get the default colour #666666 | high, not executed | TeamColors.TeamColorAsWritten, TeamColors.ConstructorIdIsNotDefault | TeamColors.TeamColor |

=== FILE: driver_results.dfy ===
/** `getDriverResults` in app/lib/f1.ts: a driver's season history built
    from the race-results and sprint-results responses. Both race lists are
    tagged with their origin, concatenated (races first), sorted by numeric
    round, and each race that has a result contributes its first result,
    with sprint statuses prefixed by "Sprint: ". */
module DriverResults {
  import opened Wrappers
  import opened Numbers
  import opened F1Records
  import opened F1Domain
  import opened F1Mapper
  import opened RoundSort

  /** An element of `allRaces`: a race and whether it came from the sprint response. */
  datatype Entry = Entry(race: RaceRec, isSprint: bool)

  /** What the history parses of a race: its round, and its first result if any. */
  predicate WfRace(r: RaceRec) {
    && IsDigits(r.round)
    && (r.results.Some? && |r.results.value| > 0 ==> WfResult(r.results.value[0]))
  }

  predicate AllWf(races: seq<RaceRec>) {
    forall i :: 0 <= i < |races| ==> WfRace(races[i])
  }

  /** An entry together with its sort key, `parseInt(race.round)`. */
  function KeyedEntry(race: RaceRec, isSprint: bool): Keyed<Entry>
    requires WfRace(race)
  {
    Keyed(ParseNat(race.round), Entry(race, isSprint))
  }

  /** `races.map(race => ({ ...race, isSprint }))` with sort keys attached. */
  function Tagged(races: seq<RaceRec>, isSprint: bool): (r: seq<Keyed<Entry>>)
    requires AllWf(races)
    ensures |r| == |races|
    ensures forall i :: 0 <= i < |r| ==> WfRace(races[i]) && r[i] == KeyedEntry(races[i], isSprint)
  {
    seq(|races|, i requires 0 <= i < |races| => KeyedEntry(races[i], isSprint))
  }

  /** Every entry carries a parsable race and its own parsed round as key. */
  ghost predicate WellKeyed(s: seq<Keyed<Entry>>) {
    forall i :: 0 <= i < |s| ==> WfRace(s[i].item.race) && s[i].key == ParseNat(s[i].item.race.round)
  }

  /** `[...races, ...sprints]` before sorting. */
  function Merged(races: seq<RaceRec>, sprints: seq<RaceRec>): seq<Keyed<Entry>>
    requires AllWf(races) && AllWf(sprints)
  {
    Tagged(races, false) + Tagged(sprints, true)
  }

  /** `allRaces`: the merged entries sorted by round. */
  function AllRaces(races: seq<RaceRec>, sprints: seq<RaceRec>): seq<Keyed<Entry>>
    requires AllWf(races) && AllWf(sprints)
  {
    Sort(Merged(races, sprints))
  }

  /** No sprint entry comes before a race entry of the same round. */
  ghost predicate SprintsLast(s: seq<Keyed<Entry>>) {
    forall i, j :: 0 <= i < j < |s| && s[i].key == s[j].key && s[i].item.isSprint ==> s[j].item.isSprint
  }

  lemma MergedFacts(races: seq<RaceRec>, sprints: seq<RaceRec>)
    requires AllWf(races) && AllWf(sprints)
    ensures WellKeyed(Merged(races, sprints))
    ensures SprintsLast(Merged(races, sprints))
  {
    var m := Merged(races, sprints);
    assert forall i :: 0 <= i < |m| ==> m[i].item.isSprint == (i >= |races|);
  }

  /** The entries of one round in `allRaces` are that round's races, in
      the order the race response lists them, followed by its sprints, in
      the order the sprint response lists them. */
  lemma RoundGroup(races: seq<RaceRec>, sprints: seq<RaceRec>, k: nat)
    requires AllWf(races) && AllWf(sprints)
    ensures WithKey(AllRaces(races, sprints), k) == WithKey(Tagged(races, false), k) + WithKey(Tagged(sprints, true), k)
  {
    WithKeyAppend(Tagged(races, false), Tagged(sprints, true), k);
  }

  lemma SortKeepsWellKeyed(s: seq<Keyed<Entry>>)
    requires WellKeyed(s)
    ensures WellKeyed(Sort(s))
  {
    var r := Sort(s);
    forall i | 0 <= i < |r| ensures WfRace(r[i].item.race) && r[i].key == ParseNat(r[i].item.race.round) {
      assert r[i] in multiset(r);
      assert r[i] in multiset(s);
      var m :| 0 <= m < |s| && s[m] == r[i];
    }
  }

  lemma {:induction false} SprintsLastSuffix(h: seq<Keyed<Entry>>, w: seq<Keyed<Entry>>)
    requires SprintsLast(h + w)
    ensures SprintsLast(w)
  {
    forall i, j | 0 <= i < j < |w| && w[i].key == w[j].key && w[i].item.isSprint
      ensures w[j].item.isSprint
    {
      assert (h + w)[|h| + i] == w[i] && (h + w)[|h| + j] == w[j];
    }
  }

  /** Taking one round's group keeps the sprints-last order. */
  lemma {:induction false} GroupKeepsSprintsLast(s: seq<Keyed<Entry>>, k: nat)
    requires SprintsLast(s)
    ensures SprintsLast(WithKey(s, k))
  {
    if |s| > 0 {
      var t := s[1..];
      assert s == [s[0]] + t;
      SprintsLastSuffix([s[0]], t);
      GroupKeepsSprintsLast(t, k);
      var w := WithKey(t, k);
      if s[0].key == k && s[0].item.isSprint {
        forall j | 0 <= j < |w| ensures w[j].item.isSprint {
          assert w[j] in w;
          WithKeyMembers(t, k, w[j]);
          var m :| 0 <= m < |t| && t[m] == w[j];
          assert s[m + 1] == w[j];
        }
      }
      var g := WithKey(s, k);
      forall i, j | 0 <= i < j < |g| && g[i].key == g[j].key && g[i].item.isSprint
        ensures g[j].item.isSprint
      {
        if s[0].key == k {
          assert g == [s[0]] + w;
          if i > 0 {
            assert g[i] == w[i - 1] && g[j] == w[j - 1];
          } else {
            assert g[j] == w[j - 1];
          }
        } else {
          assert g == w;
        }
      }
    }
  }

  /** If every round's group is sprints-last, so is the whole sequence. */
  lemma {:induction false} SprintsLastFromGroups(s: seq<Keyed<Entry>>)
    requires forall k :: SprintsLast(WithKey(s, k))
    ensures SprintsLast(s)
  {
    if |s| > 0 {
      var t := s[1..];
      assert s == [s[0]] + t;
      forall k ensures SprintsLast(WithKey(t, k)) {
        var h := if s[0].key == k then [s[0]] else [];
        assert WithKey(s, k) == h + WithKey(t, k);
        SprintsLastSuffix(h, WithKey(t, k));
      }
      SprintsLastFromGroups(t);
      forall i, j | 0 <= i < j < |s| && s[i].key == s[j].key && s[i].item.isSprint
        ensures s[j].item.isSprint
      {
        if i == 0 {
          var k := s[0].key;
          var w := WithKey(t, k);
          assert s[j] == t[j - 1];
          WithKeyMembers(t, k, s[j]);
          var m :| 0 <= m < |w| && w[m] == s[j];
          var g := WithKey(s, k);
          assert g == [s[0]] + w;
          assert g[0] == s[0] && g[m + 1] == s[j];
          assert SprintsLast(g);
        } else {
          assert s[i] == t[i - 1] && s[j] == t[j - 1];
        }
      }
    }
  }

  /** The order of `allRaces`: rounds never decrease, a race precedes the
      sprint of the same round (races are concatenated first and the sort is
      stable), every key is the entry's own round, and sorting again changes
      nothing. */
  lemma AllRacesOrdered(races: seq<RaceRec>, sprints: seq<RaceRec>)
    requires AllWf(races) && AllWf(sprints)
    ensures var a := AllRaces(races, sprints);
            && |a| == |races| + |sprints|
            && (forall i, j :: 0 <= i < j < |a| ==> a[i].key <= a[j].key)
            && (forall i, j :: 0 <= i < j < |a| && a[i].key == a[j].key && a[i].item.isSprint ==> a[j].item.isSprint)
            && WellKeyed(a)
            && Sort(a) == a
  {
    var m := Merged(races, sprints);
    var a := AllRaces(races, sprints);
    MergedFacts(races, sprints);
    SortKeepsWellKeyed(m);
    forall k ensures SprintsLast(WithKey(a, k)) {
      GroupKeepsSprintsLast(m, k);
    }
    SprintsLastFromGroups(a);
    SortIdempotent(m);
  }

  // ---------------------------------------------------------------------
  // The loop over `allRaces`

  /** `race.Results?.[0]` is present. */
  predicate HasResult(e: Entry) {
    e.race.results.Some? && |e.race.results.value| > 0
  }

  /** The entries that push a result, in order. */
  function Contributing(s: seq<Keyed<Entry>>): (r: seq<Keyed<Entry>>)
    ensures |r| <= |s|
  {
    if |s| == 0 then []
    else (if HasResult(s[0].item) then [s[0]] else []) + Contributing(s[1..])
  }

  lemma {:induction false} ContributingAppend(a: seq<Keyed<Entry>>, b: seq<Keyed<Entry>>)
    ensures Contributing(a + b) == Contributing(a) + Contributing(b)
  {
    if |a| == 0 {
      assert a + b == b;
    } else {
      var h := if HasResult(a[0].item) then [a[0]] else [];
      assert Contributing(a + b) == h + Contributing(a[1..] + b) by {
        assert (a + b)[0] == a[0];
        assert (a + b)[1..] == a[1..] + b;
      }
      ContributingAppend(a[1..], b);
      assert h + (Contributing(a[1..]) + Contributing(b)) == (h + Contributing(a[1..])) + Contributing(b);
    }
  }

  lemma {:induction false} ContributingMembers(s: seq<Keyed<Entry>>, y: Keyed<Entry>)
    ensures y in Contributing(s) <==> y in s && HasResult(y.item)
  {
    if |s| > 0 {
      ContributingMembers(s[1..], y);
      assert s == [s[0]] + s[1..];
    }
  }

  /** The result an entry pushes: its first result, with the driver's points
      set from it, and the status prefixed by "Sprint: " for a sprint. */
  function EntryResult(e: Entry): (r: RaceResult)
    requires HasResult(e) && WfResult(e.race.results.value[0])
    ensures !e.isSprint ==> r.status == e.race.results.value[0].status
    ensures e.isSprint ==> |r.status| >= 8 && r.status[..8] == "Sprint: "
                           && r.status[8..] == e.race.results.value[0].status
    ensures r.points == ParseDecimal(e.race.results.value[0].points) && r.driver.points == r.points
  {
    var x := e.race.results.value[0];
    ResultOf(x, ParseDecimal(x.points), if e.isSprint then "Sprint: " + x.status else x.status)
  }

  /** The row an entry pushes is the row `getLastRaceResults` maps from the
      same first result, except that the driver carries the result's points
      and a sprint's status is prefixed by "Sprint: ". */
  lemma EntryMatchesLastRace(race: RaceRec, isSprint: bool)
    requires HasResult(Entry(race, isSprint)) && WfResult(race.results.value[0])
    ensures var r := LastRaceResults([race.(results := Some([race.results.value[0]]))])[0];
            EntryResult(Entry(race, isSprint))
              == r.(status := if isSprint then "Sprint: " + r.status else r.status,
                    driver := r.driver.(points := r.points))
  {
  }

  /** The number of races that have at least one result. */
  function CountWithResults(races: seq<RaceRec>): (n: nat)
    ensures n <= |races|
  {
    if |races| == 0 then 0
    else (if races[0].results.Some? && |races[0].results.value| > 0 then 1 else 0) + CountWithResults(races[1..])
  }

  lemma {:induction false} ContributingTagged(races: seq<RaceRec>, isSprint: bool)
    requires AllWf(races)
    ensures |Contributing(Tagged(races, isSprint))| == CountWithResults(races)
  {
    if |races| > 0 {
      var t := Tagged(races, isSprint);
      assert t == [t[0]] + Tagged(races[1..], isSprint);
      ContributingTagged(races[1..], isSprint);
    }
  }

  lemma {:induction false} ContributingInsert(x: Keyed<Entry>, s: seq<Keyed<Entry>>)
    ensures |Contributing(Insert(x, s))| == (if HasResult(x.item) then 1 else 0) + |Contributing(s)|
  {
    if |s| == 0 || x.key <= s[0].key {
      assert ([x] + s)[1..] == s;
    } else {
      ContributingInsert(x, s[1..]);
      assert ([s[0]] + Insert(x, s[1..]))[1..] == Insert(x, s[1..]);
    }
  }

  lemma {:induction false} ContributingSort(s: seq<Keyed<Entry>>)
    ensures |Contributing(Sort(s))| == |Contributing(s)|
  {
    if |s| > 0 {
      ContributingSort(s[1..]);
      ContributingInsert(s[0], Sort(s[1..]));
    }
  }

  /** An entry that precedes every element of an ordered sequence can be
      put in front of it. */
  lemma ConsOrdered(x: Keyed<Entry>, c: seq<Keyed<Entry>>)
    requires SortedByKey(c) && SprintsLast(c) && WellKeyed(c)
    requires WfRace(x.item.race) && x.key == ParseNat(x.item.race.round)
    requires forall j :: 0 <= j < |c| ==> x.key <= c[j].key
    requires forall j :: 0 <= j < |c| && x.key == c[j].key && x.item.isSprint ==> c[j].item.isSprint
    ensures SortedByKey([x] + c) && SprintsLast([x] + c) && WellKeyed([x] + c)
  {
    var r := [x] + c;
    forall i | 0 < i < |r| ensures r[i] == c[i - 1] { }
  }

  /** The first entry of an ordered sequence precedes whatever the rest
      contributes. */
  lemma HeadPrecedesContributing(s: seq<Keyed<Entry>>)
    requires |s| > 0 && SortedByKey(s) && SprintsLast(s)
    ensures forall j :: 0 <= j < |Contributing(s[1..])| ==> s[0].key <= Contributing(s[1..])[j].key
    ensures forall j :: 0 <= j < |Contributing(s[1..])| ==>
              (s[0].key == Contributing(s[1..])[j].key && s[0].item.isSprint ==> Contributing(s[1..])[j].item.isSprint)
  {
    var t := s[1..];
    var c := Contributing(t);
    forall j | 0 <= j < |c|
      ensures s[0].key <= c[j].key
      ensures s[0].key == c[j].key && s[0].item.isSprint ==> c[j].item.isSprint
    {
      assert c[j] in c;
      ContributingMembers(t, c[j]);
      var m :| 0 <= m < |t| && t[m] == c[j];
      assert s[m + 1] == c[j];
    }
  }

  /** Filtering keeps the order and the keys of `allRaces`. */
  lemma {:induction false} ContributingOrdered(s: seq<Keyed<Entry>>)
    requires SortedByKey(s) && SprintsLast(s) && WellKeyed(s)
    ensures SortedByKey(Contributing(s)) && SprintsLast(Contributing(s)) && WellKeyed(Contributing(s))
    ensures forall i :: 0 <= i < |Contributing(s)| ==> HasResult(Contributing(s)[i].item)
  {
    if |s| > 0 {
      var t := s[1..];
      assert s == [s[0]] + t;
      ContributingOrdered(t);
      var c := Contributing(t);
      HeadPrecedesContributing(s);
      if HasResult(s[0].item) {
        assert Contributing(s) == [s[0]] + c;
        ConsOrdered(s[0], c);
      } else {
        assert Contributing(s) == c;
      }
    }
  }

  /** `results` holds, in order, what the entries of c push. */
  ghost predicate Pushed(results: seq<RaceResult>, c: seq<Keyed<Entry>>) {
    && |results| == |c|
    && forall j :: 0 <= j < |c| ==>
         HasResult(c[j].item) && WfResult(c[j].item.race.results.value[0])
         && results[j] == EntryResult(c[j].item)
  }

  /** One iteration of the loop: an entry with a result pushes it, any other
      entry pushes nothing. */
  lemma PushStep(results: seq<RaceResult>, prefix: seq<Keyed<Entry>>, x: Keyed<Entry>)
    requires Pushed(results, Contributing(prefix))
    requires WfRace(x.item.race)
    ensures HasResult(x.item) ==> Pushed(results + [EntryResult(x.item)], Contributing(prefix + [x]))
    ensures !HasResult(x.item) ==> Pushed(results, Contributing(prefix + [x]))
  {
    ContributingAppend(prefix, [x]);
    assert Contributing([x]) == (if HasResult(x.item) then [x] else []) + Contributing([]);
  }

  lemma AllRacesWellKeyed(races: seq<RaceRec>, sprints: seq<RaceRec>)
    requires AllWf(races) && AllWf(sprints)
    ensures WellKeyed(AllRaces(races, sprints))
  {
    MergedFacts(races, sprints);
    SortKeepsWellKeyed(Merged(races, sprints));
  }

  /** One history entry per race or sprint that has results. */
  lemma HistoryCount(races: seq<RaceRec>, sprints: seq<RaceRec>)
    requires AllWf(races) && AllWf(sprints)
    ensures |Contributing(AllRaces(races, sprints))| == CountWithResults(races) + CountWithResults(sprints)
  {
    ContributingSort(Merged(races, sprints));
    ContributingAppend(Tagged(races, false), Tagged(sprints, true));
    ContributingTagged(races, false);
    ContributingTagged(sprints, true);
  }

  /** `getDriverResults` after parsing: the loop over `allRaces` pushes one
      result per entry that has a result, in `allRaces` order, so there are
      never more results than races and sprints together (`HistoryCount`
      gives the exact number). */
  method DriverHistory(races: seq<RaceRec>, sprints: seq<RaceRec>) returns (results: seq<RaceResult>)
    requires AllWf(races) && AllWf(sprints)
    ensures |results| <= |races| + |sprints|
    ensures var c := Contributing(AllRaces(races, sprints));
            && |results| == |c|
            && forall i :: 0 <= i < |c| ==>
                 HasResult(c[i].item) && WfResult(c[i].item.race.results.value[0])
                 && results[i] == EntryResult(c[i].item)
  {
    var allRaces := AllRaces(races, sprints);
    AllRacesWellKeyed(races, sprints);
    results := [];
    var i := 0;
    while i < |allRaces|
      invariant 0 <= i <= |allRaces|
      invariant Pushed(results, Contributing(allRaces[..i]))
    {
      var race := allRaces[i];
      assert WfRace(race.item.race);
      assert allRaces[..i + 1] == allRaces[..i] + [race];
      PushStep(results, allRaces[..i], race);
      if HasResult(race.item) {
        results := results + [EntryResult(race.item)];
      }
      i := i + 1;
    }
    assert allRaces[..i] == allRaces;
    assert Pushed(results, Contributing(allRaces));
  }

  /** The history is in round order: the entries behind consecutive results
      have non-decreasing rounds, and a race's result precedes the sprint
      result of the same round. */
  lemma HistoryOrdered(races: seq<RaceRec>, sprints: seq<RaceRec>)
    requires AllWf(races) && AllWf(sprints)
    ensures var c := Contributing(AllRaces(races, sprints));
            && WellKeyed(c)
            && (forall i, j :: 0 <= i < j < |c| ==>
                  ParseNat(c[i].item.race.round) <= ParseNat(c[j].item.race.round))
            && (forall i, j :: (0 <= i < j < |c| && c[i].key == c[j].key
                  && c[i].item.isSprint) ==> c[j].item.isSprint)
  {
    var a := AllRaces(races, sprints);
    AllRacesOrdered(races, sprints);
    ContributingOrdered(a);
  }
}

=== FILE: f1_domain.dfy ===
/** The F1 client's domain objects (the exported interfaces of app/lib/f1.ts).
    JavaScript numbers become `nat` for parsed integers and `real` for
    parsed decimals. */
module F1Domain {
  import opened Wrappers
  import opened F1Records

  /** `F1Constructor`. */
  datatype Team = Team(
    id: string,
    name: string,
    nationality: string,
    position: nat,
    points: real,
    wins: nat,
    color: string)

  /** `F1Driver`. */
  datatype Driver = Driver(
    id: string,
    number: Option<string>,
    code: Option<string>,
    firstName: string,
    lastName: string,
    nationality: string,
    team: Team,
    position: nat,
    points: real,
    wins: nat)

  datatype FinishTime = FinishTime(millis: nat, display: string)

  datatype AverageSpeed = AverageSpeed(speed: real, units: string)

  datatype FastestLap = FastestLap(lap: nat, time: Option<string>, averageSpeed: Option<AverageSpeed>)

  /** `F1RaceResult`. */
  datatype RaceResult = RaceResult(
    position: nat,
    driver: Driver,
    grid: nat,
    laps: nat,
    status: string,
    points: real,
    time: Option<FinishTime>,
    fastestLap: Option<FastestLap>)

  datatype Timing = Timing(driverId: string, position: nat, time: string)

  /** `F1LapTime`. */
  datatype LapTime = LapTime(lap: nat, timings: seq<Timing>)

  /** `F1QualifyingResult`. */
  datatype QualifyingResult = QualifyingResult(
    position: nat,
    driver: Driver,
    q1Time: Option<string>,
    q2Time: Option<string>,
    q3Time: Option<string>)

  datatype CircuitSummary = CircuitSummary(name: string, location: string, country: string)

  datatype Sessions = Sessions(
    fp1: Option<Session>,
    fp2: Option<Session>,
    fp3: Option<Session>,
    qualifying: Option<Session>,
    sprint: Option<Session>)

  /** `F1Race`. */
  datatype Race = Race(
    round: nat,
    raceName: string,
    circuit: CircuitSummary,
    date: string,
    time: Option<string>,
    sessions: Sessions)
}

=== FILE: f1_endpoints.dfy ===
/** The upstream paths the F1 client asks its proxy for (the `endpoint`
    strings of app/lib/f1.ts) and the query parameters `fetchData` sends. */
module F1Endpoints {
  import opened Wrappers
  import opened Numbers

  const DriverStandingsFile: string := "/driverStandings.json"
  const ConstructorStandingsFile: string := "/constructorStandings.json"


  /** `season ? season : 'current'`: an absent or empty season (both falsy)
      selects the current one. */
  function SeasonSegment(season: Option<string>): (segment: string)
    ensures segment != ""
    ensures season.Some? && season.value != "" ==> segment == season.value
    ensures season.None? || season.value == "" ==> segment == "current"
  {
    if season.Some? && season.value != "" then season.value else "current"
  }

  function DriverStandingsEndpoint(season: Option<string>): string {
    "/" + SeasonSegment(season) + DriverStandingsFile
  }

  function ConstructorStandingsEndpoint(season: Option<string>): string {
    "/" + SeasonSegment(season) + ConstructorStandingsFile
  }

  /** The season segment of a standings path: what lies between the leading
      '/' and the file name. */
  function SegmentOf(path: string, file: string): string
    requires |path| >= 1 + |file|
  {
    path[1..|path| - |file|]
  }

  /** A standings path names the season it was built for: the segment read
      back from the path is the selected season (or "current"). */
  lemma StandingsSegmentRoundTrip(season: Option<string>)
    ensures |DriverStandingsEndpoint(season)| >= 1 + |DriverStandingsFile|
    ensures SegmentOf(DriverStandingsEndpoint(season), DriverStandingsFile) == SeasonSegment(season)
    ensures |ConstructorStandingsEndpoint(season)| >= 1 + |ConstructorStandingsFile|
    ensures SegmentOf(ConstructorStandingsEndpoint(season), ConstructorStandingsFile) == SeasonSegment(season)
  {
    var seg := SeasonSegment(season);
    assert ("/" + seg + DriverStandingsFile)[1..1 + |seg|] == seg;
    assert ("/" + seg + ConstructorStandingsFile)[1..1 + |seg|] == seg;
  }

  /** Two seasons give the same standings path exactly when they select the
      same segment. */
  lemma StandingsEndpointInjective(a: Option<string>, b: Option<string>)
    ensures DriverStandingsEndpoint(a) == DriverStandingsEndpoint(b) <==> SeasonSegment(a) == SeasonSegment(b)
    ensures ConstructorStandingsEndpoint(a) == ConstructorStandingsEndpoint(b) <==> SeasonSegment(a) == SeasonSegment(b)
  {
    StandingsSegmentRoundTrip(a);
    StandingsSegmentRoundTrip(b);
  }

  /** An absent season, an empty one and "current" all ask for the current
      standings. */
  lemma CurrentSeasonAliases()
    ensures DriverStandingsEndpoint(None) == DriverStandingsEndpoint(Some(""))
                                          == DriverStandingsEndpoint(Some("current"))
    ensures ConstructorStandingsEndpoint(None) == ConstructorStandingsEndpoint(Some(""))
                                               == ConstructorStandingsEndpoint(Some("current"))
  {
    assert SeasonSegment(None) == SeasonSegment(Some("")) == SeasonSegment(Some("current")) == "current";
  }

  /** A driver-standings path is never a constructor-standings path: at the
      place where the driver file name starts with '/', the constructor one
      has a letter. */
  lemma StandingsEndpointsDistinct(a: Option<string>, b: Option<string>)
    ensures DriverStandingsEndpoint(a) != ConstructorStandingsEndpoint(b)
  {
    var p := DriverStandingsEndpoint(a);
    var q := ConstructorStandingsEndpoint(b);
    assert p[|p| - 21] == '/';
    assert q[|q| - 21] == 't';
  }

  function DriverRaceResultsEndpoint(driverId: string): string {
    "/current/drivers/" + driverId + "/results.json"
  }

  function DriverSprintResultsEndpoint(driverId: string): string {
    "/current/drivers/" + driverId + "/sprint.json"
  }

  /** The value a query sends for `key`: its first entry with that key. */
  function Lookup(q: seq<(string, string)>, key: string): Option<string> {
    if |q| == 0 then None
    else if q[0].0 == key then Some(q[0].1)
    else Lookup(q[1..], key)
  }

  /** The position of the first entry with key `key`, or `|q|` if none. */
  function KeyIndex(q: seq<(string, string)>, key: string): (k: nat)
    ensures k <= |q|
    ensures forall i :: 0 <= i < k ==> q[i].0 != key
    ensures k < |q| ==> q[k].0 == key
  {
    if |q| == 0 then 0
    else if q[0].0 == key then 0
    else 1 + KeyIndex(q[1..], key)
  }

  /** The query of one `fetchData` call: `params.path = endpoint` overwrites
      an existing `path` entry where it stands and otherwise adds one at the
      end, after the caller's parameters. Percent-encoding is not modelled. */
  function FetchQuery(params: seq<(string, string)>, endpoint: string): (q: seq<(string, string)>)
    ensures KeyIndex(params, "path") == |params| ==> q == params + [("path", endpoint)]
    ensures KeyIndex(params, "path") < |params| ==> q == params[KeyIndex(params, "path") := ("path", endpoint)]
  {
    var k := KeyIndex(params, "path");
    if k < |params| then params[k := ("path", endpoint)] else params + [("path", endpoint)]
  }

  /** The query sends the endpoint as `path` and every other parameter as
      the caller gave it. */
  lemma {:induction false} FetchQueryLookup(params: seq<(string, string)>, endpoint: string, key: string)
    ensures Lookup(FetchQuery(params, endpoint), "path") == Some(endpoint)
    ensures key != "path" ==> Lookup(FetchQuery(params, endpoint), key) == Lookup(params, key)
  {
    var q := FetchQuery(params, endpoint);
    if |params| == 0 {
      assert q == [("path", endpoint)];
    } else if params[0].0 == "path" {
      assert q[0] == ("path", endpoint) && q[1..] == params[1..];
    } else {
      assert KeyIndex(params, "path") == 1 + KeyIndex(params[1..], "path");
      assert q[0] == params[0] && q[1..] == FetchQuery(params[1..], endpoint);
      FetchQueryLookup(params[1..], endpoint, key);
    }
  }

  /** The two queries of `getDriverResults`: the same `limit`, rendered in
      decimal, with the race-results and the sprint-results path. */
  function HistoryQueries(driverId: string, limit: nat): (qs: (seq<(string, string)>, seq<(string, string)>))
    ensures |qs.0| == |qs.1| == 2
    ensures qs.0[0] == qs.1[0] == ("limit", NatToString(limit))
    ensures qs.0[1].0 == qs.1[1].0 == "path" && qs.0[1].1 != qs.1[1].1
    ensures Lookup(qs.0, "path") == Some(Endpoint(DriverRaceResults(driverId)))
    ensures Lookup(qs.1, "path") == Some(Endpoint(DriverSprintResults(driverId)))
    ensures Lookup(qs.0, "limit") == Lookup(qs.1, "limit") == Some(NatToString(limit))
  {
    var params := [("limit", NatToString(limit))];
    HistoryEndpointsDistinct(driverId);
    FetchQueryLookup(params, DriverRaceResultsEndpoint(driverId), "limit");
    FetchQueryLookup(params, DriverSprintResultsEndpoint(driverId), "limit");
    (FetchQuery(params, DriverRaceResultsEndpoint(driverId)),
     FetchQuery(params, DriverSprintResultsEndpoint(driverId)))
  }

  /** The race-results and sprint-results paths of a driver differ (their
      file names differ in length). */
  lemma HistoryEndpointsDistinct(driverId: string)
    ensures DriverRaceResultsEndpoint(driverId) != DriverSprintResultsEndpoint(driverId)
  {
    assert |DriverRaceResultsEndpoint(driverId)| == |DriverSprintResultsEndpoint(driverId)| + 1;
  }

  /** The requests the F1 client makes, one per client method. */
  datatype Request =
    | CurrentSeason
    | DriverStandings(season: Option<string>)
    | ConstructorStandings(season: Option<string>)
    | LastRaceResults
    | LapTimes(lapsSeason: string, round: string)
    | LastQualifying
    | SeasonSchedule
    | DriverRaceResults(driverId: string)
    | DriverSprintResults(driverId: string)

  /** The `endpoint` each client method passes to `fetchData`. */
  function Endpoint(r: Request): (path: string)
    ensures |path| > 0 && path[0] == '/'
  {
    match r
    case CurrentSeason => "/current/last/results.json"
    case DriverStandings(season) => DriverStandingsEndpoint(season)
    case ConstructorStandings(season) => ConstructorStandingsEndpoint(season)
    case LastRaceResults => "/current/last/results.json"
    case LapTimes(season, round) => "/" + season + "/" + round + "/laps.json"
    case LastQualifying => "/current/last/qualifying.json"
    case SeasonSchedule => "/current.json"
    case DriverRaceResults(driverId) => DriverRaceResultsEndpoint(driverId)
    case DriverSprintResults(driverId) => DriverSprintResultsEndpoint(driverId)
  }

  /** `getCurrentSeason` reads the season off the last race's results: it
      asks for the same path as `getLastRaceResults`, and for a different
      one from the schedule and the last qualifying. */
  lemma CurrentSeasonReadsLastResults()
    ensures Endpoint(CurrentSeason) == Endpoint(LastRaceResults)
    ensures Endpoint(CurrentSeason) != Endpoint(SeasonSchedule)
    ensures Endpoint(CurrentSeason) != Endpoint(LastQualifying)
  {
    assert |Endpoint(CurrentSeason)| != |Endpoint(SeasonSchedule)|;
    assert Endpoint(CurrentSeason)[14] != Endpoint(LastQualifying)[14];
  }
}

=== FILE: f1_mapper.dfy ===
/** The mapping bodies of the `F1Client` methods in app/lib/f1.ts: each turns
    validated upstream records into domain objects. Fetching and schema
    parsing happen before these functions and are not modelled here. */
module F1Mapper {
  import opened Wrappers
  import opened Numbers
  import opened TeamColors
  import opened F1Records
  import opened F1Domain

  /** The team embedded in a driver: identity and colour, with standings
      fields at 0 ("filled by constructor standings" in the source). */
  function EmbeddedTeam(c: ConstructorRec): Team {
    Team(c.constructorId, c.name, c.nationality, 0, 0.0, 0, TeamColor(c.constructorId))
  }

  function DriverOf(d: DriverRec, team: Team, position: nat, points: real, wins: nat): Driver {
    Driver(d.driverId, d.permanentNumber, d.code, d.givenName, d.familyName, d.nationality,
           team, position, points, wins)
  }

  // ---------------------------------------------------------------------
  // Writing domain objects back as upstream records. The fields no mapping
  // reads (urls, date of birth, rank, ...) are parameters of the writers.

  function DriverRecOf(d: Driver, url: string, dateOfBirth: string): DriverRec {
    DriverRec(d.id, d.number, d.code, url, d.firstName, d.lastName, dateOfBirth, d.nationality)
  }

  function ConstructorRecOf(t: Team, url: string): ConstructorRec {
    ConstructorRec(t.id, url, t.name, t.nationality)
  }

  /** A team as the mappers embed it in a driver: standings fields at 0 and
      the table colour. */
  predicate IsEmbeddedTeam(t: Team) {
    t.position == 0 && t.points == 0.0 && t.wins == 0 && t.color == TeamColor(t.id)
  }

  /** A driver as a result row embeds it: an embedded team and its own
      standings fields at 0. */
  predicate IsEmbeddedDriver(d: Driver) {
    IsEmbeddedTeam(d.team) && d.position == 0 && d.points == 0.0 && d.wins == 0
  }

  /** An embedded team is exactly what its constructor record maps to. */
  lemma EmbeddedTeamRoundTrip(t: Team, url: string)
    ensures EmbeddedTeam(ConstructorRecOf(t, url)) == t <==> IsEmbeddedTeam(t)
  {
  }

  // ---------------------------------------------------------------------
  // Optional time fields

  /** `millis: parseInt(result.Time.millis || '0')`. */
  function MillisOf(millis: Option<string>): nat
    requires WfMillis(millis)
  {
    if millis.Some? && millis.value != "" then ParseNat(millis.value) else 0
  }

  /** The finish time of a result: absent stays absent; a present one keeps
      its display string verbatim and gets 0 ms when `millis` is absent or
      empty. */
  function FinishTimeOf(t: Option<TimeRec>): (r: Option<FinishTime>)
    requires t.Some? ==> WfMillis(t.value.millis)
    ensures r.None? <==> t.None?
    ensures r.Some? ==> r.value.display == t.value.time
    ensures r.Some? && (t.value.millis.None? || t.value.millis == Some("")) ==> r.value.millis == 0
    ensures r.Some? && t.value.millis.Some? && t.value.millis.value != "" ==>
              r.value.millis == ParseNat(t.value.millis.value)
  {
    match t
    case None => None
    case Some(tr) => Some(FinishTime(MillisOf(tr.millis), tr.time))
  }

  /** A finish time written the way the upstream API writes it maps back to itself. */
  lemma FinishTimeRoundTrip(ft: FinishTime)
    ensures FinishTimeOf(Some(TimeRec(Some(NatToString(ft.millis)), ft.display))) == Some(ft)
  {
  }

  /** An absent, an empty and a "0" millisecond count all read as 0 ms. */
  lemma MissingMillisIsZero(display: string)
    ensures FinishTimeOf(Some(TimeRec(None, display))) == Some(FinishTime(0, display))
    ensures FinishTimeOf(Some(TimeRec(Some(""), display))) == Some(FinishTime(0, display))
    ensures FinishTimeOf(Some(TimeRec(Some("0"), display))) == Some(FinishTime(0, display))
  {
    assert ParseNat("0") == DigitsValue("0"[..0]) * 10 + DigitValue('0');
  }

  /** The fastest lap of a result: absent stays absent; a present one has its
      lap parsed, its time copied (absent if `Time` is absent) and its
      average speed present exactly when the upstream one is. */
  function FastestLapOf(f: Option<FastestLapRec>): (r: Option<FastestLap>)
    requires f.Some? ==> WfFastestLap(f.value)
    ensures r.None? <==> f.None?
    ensures r.Some? ==> r.value.lap == ParseNat(f.value.lap)
    ensures r.Some? ==> (r.value.time.None? <==> f.value.time.None?)
    ensures r.Some? && f.value.time.Some? ==> r.value.time == Some(f.value.time.value.time)
    ensures r.Some? ==> (r.value.averageSpeed.None? <==> f.value.averageSpeed.None?)
    ensures r.Some? && f.value.averageSpeed.Some? ==>
              r.value.averageSpeed.value.units == f.value.averageSpeed.value.units
              && r.value.averageSpeed.value.speed == ParseDecimal(f.value.averageSpeed.value.speed)
  {
    match f
    case None => None
    case Some(fl) =>
      Some(FastestLap(
        ParseNat(fl.lap),
        if fl.time.Some? then Some(fl.time.value.time) else None,
        match fl.averageSpeed
        case None => None
        case Some(sp) => Some(AverageSpeed(ParseDecimal(sp.speed), sp.units))))
  }

  /** A fastest lap written back, with its average speed as `speedText`. */
  function FastestLapRecOf(f: FastestLap, rank: string, speedText: string): FastestLapRec {
    FastestLapRec(
      rank,
      NatToString(f.lap),
      if f.time.Some? then Some(LapTimeRec(f.time.value)) else None,
      if f.averageSpeed.Some? then Some(SpeedRec(f.averageSpeed.value.units, speedText)) else None)
  }

  /** A fastest lap written back, with any decimal text for its speed,
      maps back to itself. */
  lemma FastestLapRoundTrip(f: FastestLap, rank: string, speedText: string)
    requires f.averageSpeed.Some? ==> IsDecimal(speedText) && ParseDecimal(speedText) == f.averageSpeed.value.speed
    ensures WfFastestLap(FastestLapRecOf(f, rank, speedText))
    ensures FastestLapOf(Some(FastestLapRecOf(f, rank, speedText))) == Some(f)
  {
  }

  function TimeRecOf(t: Option<FinishTime>): Option<TimeRec> {
    if t.Some? then Some(TimeRec(Some(NatToString(t.value.millis)), t.value.display)) else None
  }

  /** One result row as a domain result, with the given driver points and status. */
  function ResultOf(r: ResultRec, driverPoints: real, status: string): RaceResult
    requires WfResult(r)
  {
    RaceResult(
      ParseNat(r.position),
      DriverOf(r.driver, EmbeddedTeam(r.team), 0, driverPoints, 0),
      ParseNat(r.grid),
      ParseNat(r.laps),
      status,
      ParseDecimal(r.points),
      FinishTimeOf(r.time),
      FastestLapOf(r.fastestLap))
  }

  // ---------------------------------------------------------------------
  // Standings

  function DriverOfStanding(s: DriverStandingRec): Option<Driver>
    requires WfDriverStanding(s)
  {
    if |s.constructors| == 0 then None
    else Some(DriverOf(s.driver, EmbeddedTeam(s.constructors[0]),
                       ParseNat(s.position), ParseDecimal(s.points), ParseNat(s.wins)))
  }

  /** `standings.map(...)`: fails (the source throws a TypeError reading
      `Constructors[0]`) exactly when some standing lists no constructor. */
  function MapDriverStandings(ss: seq<DriverStandingRec>): (r: Option<seq<Driver>>)
    requires forall i :: 0 <= i < |ss| ==> WfDriverStanding(ss[i])
    ensures r.None? <==> exists i :: 0 <= i < |ss| && |ss[i].constructors| == 0
    ensures r.Some? ==> |r.value| == |ss|
    ensures r.Some? ==> forall i :: 0 <= i < |ss| ==> Some(r.value[i]) == DriverOfStanding(ss[i])
  {
    if |ss| == 0 then Some([])
    else
      match DriverOfStanding(ss[0])
      case None => None
      case Some(d) =>
        match MapDriverStandings(ss[1..])
        case None => None
        case Some(rest) => Some([d] + rest)
  }

  /** `StandingsLists[0]?.DriverStandings || []`. */
  function FirstDriverStandings(lists: seq<DriverStandingsList>): seq<DriverStandingRec> {
    if |lists| == 0 then [] else lists[0].driverStandings
  }

  /** `getDriverStandings` after parsing: one driver per standing of the
      first list, in order, with its team taken from `Constructors[0]`;
      `None` when the source would throw. */
  function DriverStandings(lists: seq<DriverStandingsList>): (r: Option<seq<Driver>>)
    requires forall i :: 0 <= i < |FirstDriverStandings(lists)| ==> WfDriverStanding(FirstDriverStandings(lists)[i])
    ensures |lists| == 0 ==> r == Some([])
    ensures r.None? <==> exists i :: 0 <= i < |FirstDriverStandings(lists)| && |FirstDriverStandings(lists)[i].constructors| == 0
    ensures r.Some? ==> |r.value| == |FirstDriverStandings(lists)|
    ensures r.Some? ==> forall i :: 0 <= i < |FirstDriverStandings(lists)| ==>
              var s := FirstDriverStandings(lists)[i];
              && WfDriverStanding(s)
              && r.value[i].id == s.driver.driverId
              && r.value[i].number == s.driver.permanentNumber
              && r.value[i].code == s.driver.code
              && r.value[i].firstName == s.driver.givenName
              && r.value[i].lastName == s.driver.familyName
              && r.value[i].nationality == s.driver.nationality
              && r.value[i].position == ParseNat(s.position)
              && r.value[i].points == ParseDecimal(s.points)
              && r.value[i].wins == ParseNat(s.wins)
              && r.value[i].team.id == s.constructors[0].constructorId
              && r.value[i].team.name == s.constructors[0].name
              && r.value[i].team.nationality == s.constructors[0].nationality
              && r.value[i].team.color == TeamColor(s.constructors[0].constructorId)
              && r.value[i].team.position == 0 && r.value[i].team.points == 0.0 && r.value[i].team.wins == 0
  {
    MapDriverStandings(FirstDriverStandings(lists))
  }

  /** The worked example: position "1", points "25.0", wins "1" become 1, 25 and 1. */
  lemma StandingExample(d: DriverRec, c: ConstructorRec)
    ensures var s := DriverStandingRec("1", "1", "25.0", "1", d, [c]);
            var r := DriverStandings([DriverStandingsList("2024", "5", [s])]);
            r.Some? && |r.value| == 1
            && r.value[0].position == 1 && r.value[0].points == 25.0 && r.value[0].wins == 1
  {
    StandingNumbers();
  }

  /** The strings of a race winner's standing, parsed. */
  lemma StandingNumbers()
    ensures IsDigits("1") && ParseNat("1") == 1
    ensures IsDecimal("25.0") && ParseDecimal("25.0") == 25.0
  {
    assert ParseNat("1") == 1 by {
      assert DigitsValue("1") == 10 * DigitsValue("1"[..0]) + DigitValue('1');
    }
    assert DotIndex("25.0") == 2 by {
      assert DotIndex("25.0") == 1 + DotIndex("5.0");
      assert DotIndex("5.0") == 1 + DotIndex(".0");
    }
    assert ParseNat("25") == 25 by {
      assert "25"[..1] == "2";
      assert DigitsValue("2") == 10 * DigitsValue("2"[..0]) + DigitValue('2');
    }
    assert ParseNat("0") == 0 by {
      assert DigitsValue("0") == 10 * DigitsValue("0"[..0]) + DigitValue('0');
    }
    assert "25.0"[..2] == "25" && "25.0"[3..] == "0";
  }

  /** A driver standing written back, with any decimal text for the points. */
  function DriverStandingRecOf(d: Driver, pointsText: string, url: string, dateOfBirth: string, teamUrl: string): DriverStandingRec {
    DriverStandingRec(NatToString(d.position), NatToString(d.position), pointsText, NatToString(d.wins),
                      DriverRecOf(d, url, dateOfBirth), [ConstructorRecOf(d.team, teamUrl)])
  }

  /** A driver with an embedded team, written back as the only standing of
      a standings list, maps back to itself. */
  lemma DriverStandingRoundTrip(d: Driver, pointsText: string, url: string, dateOfBirth: string, teamUrl: string,
                                season: string, round: string)
    requires IsEmbeddedTeam(d.team)
    requires IsDecimal(pointsText) && ParseDecimal(pointsText) == d.points
    ensures var s := DriverStandingRecOf(d, pointsText, url, dateOfBirth, teamUrl);
            WfDriverStanding(s) && DriverStandings([DriverStandingsList(season, round, [s])]) == Some([d])
  {
    var s := DriverStandingRecOf(d, pointsText, url, dateOfBirth, teamUrl);
    assert DriverOfStanding(s) == Some(d);
    assert MapDriverStandings([s]) == Some([d]) by {
      assert [s][0] == s && [s][1..] == [];
      assert MapDriverStandings([s][1..]) == Some([]);
      assert [d] + [] == [d];
    }
  }

  function ConstructorOfStanding(s: ConstructorStandingRec): Team
    requires WfConstructorStanding(s)
  {
    Team(s.team.constructorId, s.team.name, s.team.nationality,
         ParseNat(s.position), ParseDecimal(s.points), ParseNat(s.wins),
         TeamColor(s.team.constructorId))
  }

  /** `StandingsLists[0]?.ConstructorStandings || []`. */
  function FirstConstructorStandings(lists: seq<ConstructorStandingsList>): seq<ConstructorStandingRec> {
    if |lists| == 0 then [] else lists[0].constructorStandings
  }

  /** `getConstructorStandings` after parsing: one team per standing of the
      first list, in order, coloured by the table; empty when there is no list. */
  function ConstructorStandings(lists: seq<ConstructorStandingsList>): (r: seq<Team>)
    requires forall i :: 0 <= i < |FirstConstructorStandings(lists)| ==> WfConstructorStanding(FirstConstructorStandings(lists)[i])
    ensures |lists| == 0 ==> r == []
    ensures |r| == |FirstConstructorStandings(lists)|
    ensures forall i :: 0 <= i < |r| ==>
              var s := FirstConstructorStandings(lists)[i];
              && WfConstructorStanding(s)
              && r[i].id == s.team.constructorId
              && r[i].name == s.team.name
              && r[i].nationality == s.team.nationality
              && r[i].position == ParseNat(s.position)
              && r[i].points == ParseDecimal(s.points)
              && r[i].wins == ParseNat(s.wins)
              && r[i].color == TeamColor(s.team.constructorId)
  {
    var ss := FirstConstructorStandings(lists);
    seq(|ss|, i requires 0 <= i < |ss| => ConstructorOfStanding(ss[i]))
  }

  /** A constructor standing written back, with any decimal text for the points. */
  function ConstructorStandingRecOf(t: Team, pointsText: string, url: string): ConstructorStandingRec {
    ConstructorStandingRec(NatToString(t.position), NatToString(t.position), pointsText, NatToString(t.wins),
                           ConstructorRecOf(t, url))
  }

  /** A team with the table colour, written back as the only standing of a
      standings list with any decimal text for its points, maps back to itself. */
  lemma ConstructorStandingRoundTrip(t: Team, pointsText: string, url: string, season: string, round: string)
    requires IsDecimal(pointsText) && ParseDecimal(pointsText) == t.points
    requires t.color == TeamColor(t.id)
    ensures var s := ConstructorStandingRecOf(t, pointsText, url);
            WfConstructorStanding(s) && ConstructorStandings([ConstructorStandingsList(season, round, [s])]) == [t]
  {
    var s := ConstructorStandingRecOf(t, pointsText, url);
    assert ConstructorOfStanding(s) == t;
  }

  // ---------------------------------------------------------------------
  // Last race, lap times, qualifying, schedule

  /** `RaceTable.Races[0]?.Results || []`. */
  function FirstRaceResults(races: seq<RaceRec>): seq<ResultRec> {
    if |races| == 0 || races[0].results.None? then [] else races[0].results.value
  }

  /** `getLastRaceResults` after parsing: one result per row of the first
      race, in order, with the row's status verbatim and the embedded
      driver's standings fields at 0. */
  function LastRaceResults(races: seq<RaceRec>): (r: seq<RaceResult>)
    requires forall i :: 0 <= i < |FirstRaceResults(races)| ==> WfResult(FirstRaceResults(races)[i])
    ensures |races| == 0 || races[0].results.None? ==> r == []
    ensures |r| == |FirstRaceResults(races)|
    ensures forall i :: 0 <= i < |r| ==>
              var x := FirstRaceResults(races)[i];
              && WfResult(x)
              && r[i].position == ParseNat(x.position)
              && r[i].grid == ParseNat(x.grid)
              && r[i].laps == ParseNat(x.laps)
              && r[i].points == ParseDecimal(x.points)
              && r[i].status == x.status
              && r[i].time == FinishTimeOf(x.time)
              && r[i].fastestLap == FastestLapOf(x.fastestLap)
              && r[i].driver.id == x.driver.driverId
              && r[i].driver.position == 0 && r[i].driver.points == 0.0 && r[i].driver.wins == 0
              && r[i].driver.team.color == TeamColor(x.team.constructorId)
  {
    var rs := FirstRaceResults(races);
    seq(|rs|, i requires 0 <= i < |rs| => ResultOf(rs[i], 0.0, rs[i].status))
  }

  /** A result row written back, with any decimal texts for the points and
      the fastest lap's speed. */
  function ResultRecOf(r: RaceResult, pointsText: string, speedText: string,
                       url: string, dateOfBirth: string, teamUrl: string): ResultRec {
    ResultRec(NatToString(r.position), NatToString(r.position), NatToString(r.position), pointsText,
              DriverRecOf(r.driver, url, dateOfBirth), ConstructorRecOf(r.driver.team, teamUrl),
              NatToString(r.grid), NatToString(r.laps), r.status, TimeRecOf(r.time),
              if r.fastestLap.Some? then Some(FastestLapRecOf(r.fastestLap.value, "1", speedText)) else None)
  }

  /** A result whose driver is embedded as the rows embed it, written back
      as the only row of the last race, maps back to itself. */
  lemma RaceResultRoundTrip(r: RaceResult, pointsText: string, speedText: string,
                            url: string, dateOfBirth: string, teamUrl: string, race: RaceRec)
    requires IsEmbeddedDriver(r.driver)
    requires IsDecimal(pointsText) && ParseDecimal(pointsText) == r.points
    requires r.fastestLap.Some? && r.fastestLap.value.averageSpeed.Some? ==>
               IsDecimal(speedText) && ParseDecimal(speedText) == r.fastestLap.value.averageSpeed.value.speed
    ensures var row := ResultRecOf(r, pointsText, speedText, url, dateOfBirth, teamUrl);
            WfResult(row) && LastRaceResults([race.(results := Some([row]))]) == [r]
  {
    var row := ResultRecOf(r, pointsText, speedText, url, dateOfBirth, teamUrl);
    if r.fastestLap.Some? {
      FastestLapRoundTrip(r.fastestLap.value, "1", speedText);
    }
    assert FinishTimeOf(row.time) == r.time;
    assert ResultOf(row, 0.0, row.status) == r;
  }

  /** `RaceTable.Races[0]?.Laps || []`. */
  function FirstLaps(races: seq<LapsRaceRec>): seq<LapRec> {
    if |races| == 0 then [] else races[0].laps
  }

  function TimingOf(t: TimingRec): Timing
    requires IsDigits(t.position)
  {
    Timing(t.driverId, ParseNat(t.position), t.time)
  }

  function LapTimeOf(l: LapRec): LapTime
    requires WfLap(l)
  {
    LapTime(ParseNat(l.number),
            seq(|l.timings|, j requires 0 <= j < |l.timings| => TimingOf(l.timings[j])))
  }

  /** `getRaceLapTimes` after parsing: one lap per upstream lap of the first
      race, each with one timing per upstream timing, in order. */
  function LapTimes(races: seq<LapsRaceRec>): (r: seq<LapTime>)
    requires forall i :: 0 <= i < |FirstLaps(races)| ==> WfLap(FirstLaps(races)[i])
    ensures |races| == 0 ==> r == []
    ensures |r| == |FirstLaps(races)|
    ensures forall i :: 0 <= i < |r| ==>
              var l := FirstLaps(races)[i];
              && WfLap(l)
              && r[i].lap == ParseNat(l.number)
              && |r[i].timings| == |l.timings|
              && forall j :: 0 <= j < |l.timings| ==>
                   && r[i].timings[j].driverId == l.timings[j].driverId
                   && r[i].timings[j].position == ParseNat(l.timings[j].position)
                   && r[i].timings[j].time == l.timings[j].time
  {
    var ls := FirstLaps(races);
    seq(|ls|, i requires 0 <= i < |ls| => LapTimeOf(ls[i]))
  }

  function LapRecOf(l: LapTime): LapRec {
    LapRec(NatToString(l.lap),
           seq(|l.timings|, j requires 0 <= j < |l.timings| =>
             TimingRec(l.timings[j].driverId, NatToString(l.timings[j].position), l.timings[j].time)))
  }

  /** Laps written back as the laps of a race map back to themselves. */
  lemma LapTimesRoundTrip(ls: seq<LapTime>, race: LapsRaceRec)
    ensures var laps := seq(|ls|, i requires 0 <= i < |ls| => LapRecOf(ls[i]));
            (forall i :: 0 <= i < |laps| ==> WfLap(laps[i]))
            && LapTimes([race.(laps := laps)]) == ls
  {
    var laps := seq(|ls|, i requires 0 <= i < |ls| => LapRecOf(ls[i]));
    forall i | 0 <= i < |ls|
      ensures WfLap(laps[i]) && LapTimeOf(laps[i]) == ls[i]
    {
      var t := LapTimeOf(laps[i]).timings;
      assert |t| == |ls[i].timings|;
      forall j | 0 <= j < |t|
        ensures t[j] == ls[i].timings[j]
      {
      }
    }
  }

  /** `RaceTable.Races[0]?.QualifyingResults || []`. */
  function FirstQualifying(races: seq<QualifyingRaceRec>): seq<QualifyingResultRec> {
    if |races| == 0 then [] else races[0].qualifyingResults
  }

  function QualifyingOf(q: QualifyingResultRec): QualifyingResult
    requires IsDigits(q.position)
  {
    QualifyingResult(ParseNat(q.position), DriverOf(q.driver, EmbeddedTeam(q.team), 0, 0.0, 0), q.q1, q.q2, q.q3)
  }

  /** `getLastQualifying` after parsing: one result per upstream row of the
      first race, in order, with Q1..Q3 passed through, absent ones included. */
  function LastQualifying(races: seq<QualifyingRaceRec>): (r: seq<QualifyingResult>)
    requires forall i :: 0 <= i < |FirstQualifying(races)| ==> IsDigits(FirstQualifying(races)[i].position)
    ensures |races| == 0 ==> r == []
    ensures |r| == |FirstQualifying(races)|
    ensures forall i :: 0 <= i < |r| ==>
              var q := FirstQualifying(races)[i];
              && r[i].position == ParseNat(q.position)
              && r[i].q1Time == q.q1 && r[i].q2Time == q.q2 && r[i].q3Time == q.q3
              && r[i].driver.id == q.driver.driverId
              && r[i].driver.team.id == q.team.constructorId
              && r[i].driver.team.color == TeamColor(q.team.constructorId)
  {
    var qs := FirstQualifying(races);
    seq(|qs|, i requires 0 <= i < |qs| => QualifyingOf(qs[i]))
  }

  function QualifyingRecOf(q: QualifyingResult, url: string, dateOfBirth: string, teamUrl: string): QualifyingResultRec {
    QualifyingResultRec(NatToString(q.position), NatToString(q.position),
                        DriverRecOf(q.driver, url, dateOfBirth), ConstructorRecOf(q.driver.team, teamUrl),
                        q.q1Time, q.q2Time, q.q3Time)
  }

  /** A qualifying result whose driver is embedded as the rows embed it,
      written back as the only row of the last qualifying, maps back to itself. */
  lemma QualifyingRoundTrip(q: QualifyingResult, url: string, dateOfBirth: string, teamUrl: string,
                            race: QualifyingRaceRec)
    requires IsEmbeddedDriver(q.driver)
    ensures LastQualifying([race.(qualifyingResults := [QualifyingRecOf(q, url, dateOfBirth, teamUrl)])]) == [q]
  {
    assert QualifyingOf(QualifyingRecOf(q, url, dateOfBirth, teamUrl)) == q;
  }

  function RaceOf(r: ScheduleRaceRec): Race
    requires IsDigits(r.round)
  {
    Race(
      ParseNat(r.round),
      r.raceName,
      CircuitSummary(r.circuit.circuitName, r.circuit.location.locality, r.circuit.location.country),
      r.date,
      r.time,
      Sessions(r.firstPractice, r.secondPractice, r.thirdPractice, r.qualifying, r.sprint))
  }

  /** `getSeasonSchedule` after parsing: one race per upstream race, in
      order, with the circuit summarised and the sessions copied as they are. */
  function SeasonSchedule(races: seq<ScheduleRaceRec>): (r: seq<Race>)
    requires forall i :: 0 <= i < |races| ==> IsDigits(races[i].round)
    ensures |r| == |races|
    ensures forall i :: 0 <= i < |r| ==>
              && r[i].round == ParseNat(races[i].round)
              && r[i].raceName == races[i].raceName
              && r[i].circuit.name == races[i].circuit.circuitName
              && r[i].circuit.location == races[i].circuit.location.locality
              && r[i].circuit.country == races[i].circuit.location.country
              && r[i].date == races[i].date && r[i].time == races[i].time
              && r[i].sessions.fp1 == races[i].firstPractice
              && r[i].sessions.fp2 == races[i].secondPractice
              && r[i].sessions.fp3 == races[i].thirdPractice
              && r[i].sessions.qualifying == races[i].qualifying
              && r[i].sessions.sprint == races[i].sprint
  {
    seq(|races|, i requires 0 <= i < |races| => RaceOf(races[i]))
  }

  /** The schedule keeps the round numbers: rendering a mapped round gives
      back the upstream string whenever that string has no leading zero. */
  lemma ScheduleRoundsRoundTrip(races: seq<ScheduleRaceRec>)
    requires forall i :: 0 <= i < |races| ==> IsDigits(races[i].round) && IsCanonical(races[i].round)
    ensures forall i :: 0 <= i < |races| ==> NatToString(SeasonSchedule(races)[i].round) == races[i].round
  {
    forall i | 0 <= i < |races|
      ensures NatToString(SeasonSchedule(races)[i].round) == races[i].round
    {
      ParseThenRender(races[i].round);
    }
  }

  /** `getCurrentSeason` after parsing: the first race's season; `None` when
      there is no race (the source throws reading `Races[0].season`). */
  function CurrentSeason(races: seq<RaceRec>): (r: Option<string>)
    ensures r.None? <==> |races| == 0
    ensures r.Some? ==> r.value == races[0].season
  {
    if |races| == 0 then None else Some(races[0].season)
  }
}

=== FILE: f1_records.dfy ===
/** The upstream F1 records as they stand once the response schemas of
    app/lib/f1.ts have accepted them. Optional schema fields are `Option`s;
    `MRData` metadata (series, url, limit, offset, total) is not read by any
    mapping and is not modelled. Numeric fields arrive as strings. */
module F1Records {
  import opened Wrappers
  import opened Numbers

  datatype Location = Location(lat: string, long: string, locality: string, country: string)

  datatype Circuit = Circuit(circuitId: string, url: string, circuitName: string, location: Location)

  datatype ConstructorRec = ConstructorRec(constructorId: string, url: string, name: string, nationality: string)

  datatype DriverRec = DriverRec(
    driverId: string,
    permanentNumber: Option<string>,
    code: Option<string>,
    url: string,
    givenName: string,
    familyName: string,
    dateOfBirth: string,
    nationality: string)

  /** A finisher's `Time`: the optional millisecond count and the display string. */
  datatype TimeRec = TimeRec(millis: Option<string>, time: string)

  /** `FastestLap.Time`. */
  datatype LapTimeRec = LapTimeRec(time: string)

  datatype SpeedRec = SpeedRec(units: string, speed: string)

  datatype FastestLapRec = FastestLapRec(
    rank: string,
    lap: string,
    time: Option<LapTimeRec>,
    averageSpeed: Option<SpeedRec>)

  /** A result row; `team` is the upstream `Constructor` field. */
  datatype ResultRec = ResultRec(
    number: string,
    position: string,
    positionText: string,
    points: string,
    driver: DriverRec,
    team: ConstructorRec,
    grid: string,
    laps: string,
    status: string,
    time: Option<TimeRec>,
    fastestLap: Option<FastestLapRec>)

  /** A race of a results (or sprint results) response. */
  datatype RaceRec = RaceRec(
    season: string,
    round: string,
    url: string,
    raceName: string,
    circuit: Circuit,
    date: string,
    time: Option<string>,
    results: Option<seq<ResultRec>>)

  datatype DriverStandingRec = DriverStandingRec(
    position: string,
    positionText: string,
    points: string,
    wins: string,
    driver: DriverRec,
    constructors: seq<ConstructorRec>)

  datatype DriverStandingsList = DriverStandingsList(
    season: string,
    round: string,
    driverStandings: seq<DriverStandingRec>)

  datatype ConstructorStandingRec = ConstructorStandingRec(
    position: string,
    positionText: string,
    points: string,
    wins: string,
    team: ConstructorRec)

  datatype ConstructorStandingsList = ConstructorStandingsList(
    season: string,
    round: string,
    constructorStandings: seq<ConstructorStandingRec>)

  datatype TimingRec = TimingRec(driverId: string, position: string, time: string)

  datatype LapRec = LapRec(number: string, timings: seq<TimingRec>)

  datatype LapsRaceRec = LapsRaceRec(
    season: string,
    round: string,
    url: string,
    raceName: string,
    circuit: Circuit,
    date: string,
    time: Option<string>,
    laps: seq<LapRec>)

  datatype QualifyingResultRec = QualifyingResultRec(
    number: string,
    position: string,
    driver: DriverRec,
    team: ConstructorRec,
    q1: Option<string>,
    q2: Option<string>,
    q3: Option<string>)

  datatype QualifyingRaceRec = QualifyingRaceRec(
    season: string,
    round: string,
    raceName: string,
    circuit: Circuit,
    date: string,
    time: Option<string>,
    qualifyingResults: seq<QualifyingResultRec>)

  /** A weekend session's date and optional start time. The schedule mapping
      hands these objects on as they are, so the domain uses the same type. */
  datatype Session = Session(date: string, time: Option<string>)

  datatype ScheduleRaceRec = ScheduleRaceRec(
    season: string,
    round: string,
    raceName: string,
    circuit: Circuit,
    date: string,
    time: Option<string>,
    firstPractice: Option<Session>,
    secondPractice: Option<Session>,
    thirdPractice: Option<Session>,
    qualifying: Option<Session>,
    sprint: Option<Session>)

  // The numeric strings the mappings parse. The schemas only check that
  // these are strings; the predicates below ask for the digit and decimal
  // forms the upstream API sends, so that parsing never meets NaN.

  /** A `millis` that `result.Time.millis || '0'` parses: absent and empty
      strings fall back to '0', anything else must be digits. */
  predicate WfMillis(millis: Option<string>) {
    millis.Some? && millis.value != "" ==> IsDigits(millis.value)
  }

  predicate WfFastestLap(f: FastestLapRec) {
    && IsDigits(f.lap)
    && (f.averageSpeed.Some? ==> IsDecimal(f.averageSpeed.value.speed))
  }

  predicate WfResult(r: ResultRec) {
    && IsDigits(r.position)
    && IsDecimal(r.points)
    && IsDigits(r.grid)
    && IsDigits(r.laps)
    && (r.time.Some? ==> WfMillis(r.time.value.millis))
    && (r.fastestLap.Some? ==> WfFastestLap(r.fastestLap.value))
  }

  predicate WfDriverStanding(s: DriverStandingRec) {
    IsDigits(s.position) && IsDecimal(s.points) && IsDigits(s.wins)
  }

  predicate WfConstructorStanding(s: ConstructorStandingRec) {
    IsDigits(s.position) && IsDecimal(s.points) && IsDigits(s.wins)
  }

  predicate WfLap(l: LapRec) {
    IsDigits(l.number) && forall i :: 0 <= i < |l.timings| ==> IsDigits(l.timings[i].position)
  }
}

=== FILE: http.dfy ===
/** The request/response vocabulary shared by the API route handlers: the
    one upstream call a handler makes, the abstract outcome of that call, and
    the JSON reply. The network, `AbortSignal.timeout` and logging are not
    modelled; a timeout is a `FetchThrew` outcome. */
module Http {
  import opened Wrappers
  import opened Json
  import opened Numbers

  datatype Method = Get | Post

  /** An upstream call. Every call the handlers make sends
      `Content-Type: application/json`; the timeout is the one its
      `AbortSignal.timeout` sets, if any. */
  datatype Call = Call(verb: Method, url: string, body: Option<Json>, timeoutMs: Option<nat>)

  datatype Response = Response(status: nat, body: Json)

  /** What handling one request did: the upstream call it made, if any, and
      the reply it returned. */
  datatype Exchange = Exchange(call: Option<Call>, response: Response)

  /** A thrown JavaScript value: an `Error` with its message, or anything else. */
  datatype Thrown = ErrorValue(message: string) | NonError

  /** `error instanceof Error ? error.message : 'Unknown error'`. */
  function Details(e: Thrown): string {
    match e
    case ErrorValue(m) => m
    case NonError => "Unknown error"
  }

  /** The outcome of `await request.json()`. */
  datatype Body = Body(json: Json) | Malformed(error: Thrown)

  /** The outcome of `await response.json()`. */
  datatype Payload = Parsed(json: Json) | Unparsable(error: Thrown)

  /** The outcome of `await fetch(...)`: a response with its status and
      body, or a rejection (network failure, timeout). */
  datatype Upstream = Replied(status: nat, payload: Payload) | FetchThrew(error: Thrown)

  /** `response.ok`. */
  predicate IsOk(status: nat) {
    200 <= status <= 299
  }

  /** A destructured request field: `undefined` unless the body is an
      object that has it. */
  function Field(body: Json, key: string): Option<Json> {
    Prop(Some(body), key)
  }

  /** `{ error: message }`. */
  function ErrorBody(message: string): Json {
    JObj(map["error" := JStr(message)])
  }

  const HttpErrorPrefix: string := "HTTP error! status: "

  /** The message of the Error thrown for a non-ok upstream status. */
  function HttpErrorMessage(status: nat): string {
    HttpErrorPrefix + NatToString(status)
  }

  /** The status can be read back from the message. */
  lemma HttpErrorMessageRoundTrip(status: nat)
    ensures |HttpErrorMessage(status)| > |HttpErrorPrefix|
    ensures HttpErrorMessage(status)[..|HttpErrorPrefix|] == HttpErrorPrefix
    ensures var digits := HttpErrorMessage(status)[|HttpErrorPrefix|..];
            IsDigits(digits) && ParseNat(digits) == status
  {
    assert HttpErrorMessage(status)[|HttpErrorPrefix|..] == NatToString(status);
  }
}

=== FILE: json.dfy ===
/** JSON values as a request handler sees them after `request.json()` or
    `response.json()`, together with the few JavaScript operations the
    handlers apply to them: truthiness, property access and `[0]`. */
module Json {
  import opened Wrappers

  /** A parsed JSON value. Numbers are exact reals (JSON has no NaN or
      Infinity); an object is a map because `JSON.parse` keeps the last of
      duplicate keys. */
  datatype Json =
    | JNull
    | JBool(b: bool)
    | JNum(n: real)
    | JStr(s: string)
    | JArr(items: seq<Json>)
    | JObj(members: map<string, Json>)

  /** JavaScript truthiness of a possibly-undefined value (`None` is
      `undefined`). */
  predicate Truthy(v: Option<Json>) {
    match v
    case None => false
    case Some(JNull) => false
    case Some(JBool(b)) => b
    case Some(JNum(n)) => n != 0.0
    case Some(JStr(s)) => s != ""
    case Some(JArr(_)) => true
    case Some(JObj(_)) => true
  }

  /** `v?.key` for a JSON value: only objects have own properties by these
      names; `undefined` and `null` short-circuit to `undefined`. */
  function Prop(v: Option<Json>, key: string): (r: Option<Json>)
    ensures r.Some? ==> v.Some? && v.value.JObj? && key in v.value.members
    ensures v.Some? && v.value.JObj? && key in v.value.members ==> r == Some(v.value.members[key])
  {
    match v
    case Some(JObj(m)) => if key in m then Some(m[key]) else None
    case _ => None
  }

  /** `v?.[0]`: the first array element, the object property "0", or the
      first character of a string. */
  function First(v: Option<Json>): (r: Option<Json>)
    ensures v.Some? && v.value.JArr? && |v.value.items| > 0 ==> r == Some(v.value.items[0])
    ensures v.Some? && v.value.JArr? && |v.value.items| == 0 ==> r.None?
    ensures v.Some? && v.value.JObj? ==> r == Prop(v, "0")
    ensures v.Some? && v.value.JStr? && |v.value.s| > 0 ==> r == Some(JStr([v.value.s[0]]))
    ensures v.Some? && v.value.JStr? && |v.value.s| == 0 ==> r.None?
    ensures v.None? || v.value.JNull? || v.value.JBool? || v.value.JNum? ==> r.None?
  {
    match v
    case Some(JArr(items)) => if |items| > 0 then Some(items[0]) else None
    case Some(JObj(m)) => Prop(v, "0")
    case Some(JStr(s)) => if |s| > 0 then Some(JStr([s[0]])) else None
    case _ => None
  }
}

=== FILE: numbers.dfy ===
/** Decimal strings and the numbers they denote: what `parseInt(s)` and
    `parseFloat(s)` give for the well-formed strings the upstream F1 API
    sends, and what `${n}` renders for a natural number. */
module Numbers {

  predicate IsDigit(c: char) {
    '0' <= c <= '9'
  }

  predicate AllDigits(s: string) {
    forall i :: 0 <= i < |s| ==> IsDigit(s[i])
  }

  /** A non-empty run of ASCII decimal digits. */
  predicate IsDigits(s: string) {
    |s| > 0 && AllDigits(s)
  }

  function DigitValue(c: char): (d: nat)
    requires IsDigit(c)
    ensures d < 10
  {
    c as int - '0' as int
  }

  function DigitChar(d: nat): (c: char)
    requires d < 10
    ensures IsDigit(c) && DigitValue(c) == d
  {
    ('0' as int + d) as char
  }

  /** The value of a (possibly empty) digit string, most significant digit first. */
  function DigitsValue(s: string): nat
    requires AllDigits(s)
  {
    if |s| == 0 then 0 else 10 * DigitsValue(s[..|s| - 1]) + DigitValue(s[|s| - 1])
  }

  function Pow10(k: nat): (p: nat)
    ensures p >= 1
  {
    if k == 0 then 1 else 10 * Pow10(k - 1)
  }

  /** `parseInt(s)` for a non-empty digit string. */
  function ParseNat(s: string): nat
    requires IsDigits(s)
  {
    DigitsValue(s)
  }


  /** `${n}`: the canonical decimal rendering of a natural number. Parsing
      it back gives `n`, and it has no leading zero. */
  function NatToString(n: nat): (r: string)
    ensures IsDigits(r)
    ensures ParseNat(r) == n
    ensures r[0] == '0' ==> r == "0"
  {
    if n < 10 then
      var r := [DigitChar(n)];
      assert r[..0] == [];
      assert DigitsValue(r) == 10 * DigitsValue(r[..0]) + DigitValue(r[0]);
      r
    else
      var prefix := NatToString(n / 10);
      var r := prefix + [DigitChar(n % 10)];
      assert r[..|r| - 1] == prefix;
      r
  }

  /** A digit string without a superfluous leading zero. */
  predicate IsCanonical(s: string) {
    IsDigits(s) && (s[0] == '0' ==> s == "0")
  }

  /** A canonical digit string of length k > 1 denotes at least 10^(k-1). */
  lemma {:induction false} CanonicalLowerBound(s: string)
    requires IsDigits(s) && s[0] != '0'
    ensures DigitsValue(s) >= Pow10(|s| - 1)
  {
    if |s| > 1 {
      var t := s[..|s| - 1];
      assert t[0] == s[0];
      CanonicalLowerBound(t);
    }
  }

  /** Rendering a parsed canonical digit string gives the string back, so
      `NatToString` and `ParseNat` are inverse bijections between naturals
      and canonical digit strings. */
  lemma {:induction false} ParseThenRender(s: string)
    requires IsCanonical(s)
    ensures NatToString(ParseNat(s)) == s
  {
    if |s| == 1 {
    } else {
      var t := s[..|s| - 1];
      assert t[0] == s[0];
      CanonicalLowerBound(t);
      var n := ParseNat(s);
      assert n / 10 == DigitsValue(t) && n % 10 == DigitValue(s[|s| - 1]);
      ParseThenRender(t);
      assert s == t + [s[|s| - 1]];
    }
  }

  /** Index of the first '.', or |s| when there is none. */
  function DotIndex(s: string): (k: nat)
    ensures k <= |s|
    ensures k < |s| ==> s[k] == '.'
    ensures forall i :: 0 <= i < k ==> s[i] != '.'
  {
    if |s| == 0 then 0 else if s[0] == '.' then 0 else 1 + DotIndex(s[1..])
  }

  /** A decimal string: digits, optionally followed by '.' and more digits. */
  predicate IsDecimal(s: string) {
    var k := DotIndex(s);
    IsDigits(s[..k]) && (k < |s| ==> IsDigits(s[k + 1..]))
  }

  /** `parseFloat(s)` for a decimal string, as an exact rational (binary64
      rounding is not modelled). */
  function ParseDecimal(s: string): real
    requires IsDecimal(s)
  {
    var k := DotIndex(s);
    if k == |s| then ParseNat(s[..k]) as real
    else ParseNat(s[..k]) as real + ParseNat(s[k + 1..]) as real / Pow10(|s| - k - 1) as real
  }
}

=== FILE: otf_chat.dfy ===
/** The OTF chat relay (`POST /api/otf-chat`): checks a shared password,
    wraps the message in a JSON-RPC `tasks/send` request to the agent, and
    pulls the reply text out of whatever JSON the agent answers with. */
module OtfChat {
  import opened Wrappers
  import opened Json
  import opened Numbers
  import opened Http

  const UnauthorizedError: string := "Unauthorized"
  const MessageRequiredError: string := "Message is required."
  const AgentFailureError: string := "Failed to contact OTF agent."
  const NoResponseText: string := "Sorry, no response."

  /** `password` is present, truthy and strictly equal to the configured
      password. */
  predicate Authorized(secret: string, password: Option<Json>) {
    Truthy(password) && password == Some(JStr(secret))
  }

  /** `message` is a non-empty string. */
  predicate ValidMessage(message: Option<Json>) {
    Truthy(message) && message.value.JStr?
  }

  function TextPart(text: string): Json {
    JObj(map["type" := JStr("text"), "text" := JStr(text)])
  }

  /** The request sent to the agent; `id` is `Date.now().toString()`. */
  function Envelope(id: string, text: string): Json {
    JObj(map[
      "jsonrpc" := JStr("2.0"),
      "id" := JStr(id),
      "method" := JStr("tasks/send"),
      "params" := JObj(map[
        "id" := JStr(id),
        "message" := JObj(map["role" := JStr("user"), "parts" := JArr([TextPart(text)])])])])
  }

  predicate StartsWith(s: string, prefix: string) {
    |prefix| <= |s| && s[..|prefix|] == prefix
  }

  /** A Request object as section 4 of the JSON-RPC 2.0 Specification
      defines it: exactly the members `jsonrpc` ("2.0"), `method` (a string
      not starting with "rpc."), and optionally `params` (structured) and
      `id` (string, number or null). */
  predicate IsJsonRpcRequest(j: Json) {
    && j.JObj?
    && j.members.Keys <= {"jsonrpc", "method", "params", "id"}
    && "jsonrpc" in j.members && j.members["jsonrpc"] == JStr("2.0")
    && "method" in j.members && j.members["method"].JStr?
    && !StartsWith(j.members["method"].s, "rpc.")
    && ("params" in j.members ==> j.members["params"].JObj? || j.members["params"].JArr?)
    && ("id" in j.members ==> j.members["id"].JStr? || j.members["id"].JNum? || j.members["id"].JNull?)
  }

  /** Section 4.1: a Request object without an `id` is a Notification,
      which the server does not answer. */
  predicate IsNotification(j: Json) {
    IsJsonRpcRequest(j) && "id" !in j.members
  }

  /** The texts of the `text` parts of a message's `parts` array. */
  function PartTexts(parts: seq<Json>): (texts: seq<string>)
    ensures |texts| <= |parts|
  {
    if |parts| == 0 then []
    else
      var p := parts[0];
      var here :=
        if Prop(Some(p), "type") == Some(JStr("text")) && Prop(Some(p), "text").Some?
           && Prop(Some(p), "text").value.JStr?
        then [Prop(Some(p), "text").value.s]
        else [];
      here + PartTexts(parts[1..])
  }

  /** What an agent reads out of a `tasks/send` request: the task id, the
      message id, the role and the message text parts. */
  function TaskId(j: Json): Option<Json> {
    Prop(Prop(Some(j), "params"), "id")
  }

  function MessageRole(j: Json): Option<Json> {
    Prop(Prop(Prop(Some(j), "params"), "message"), "role")
  }

  function MessageTexts(j: Json): seq<string> {
    match Prop(Prop(Prop(Some(j), "params"), "message"), "parts")
    case Some(JArr(parts)) => PartTexts(parts)
    case _ => []
  }

  /** The envelope is an answerable JSON-RPC request for `tasks/send`. */
  lemma EnvelopeIsRequest(id: string, text: string)
    ensures IsJsonRpcRequest(Envelope(id, text))
    ensures !IsNotification(Envelope(id, text))
    ensures Envelope(id, text).members["method"] == JStr("tasks/send")
  {
    var m := Envelope(id, text).members;
    assert m.Keys == {"jsonrpc", "id", "method", "params"};
    assert m["method"].s[..4][0] == 't';
  }

  /** The agent reads back exactly the user's message as one text part,
      under the same id at both levels. */
  lemma EnvelopeRoundTrip(id: string, text: string)
    ensures MessageTexts(Envelope(id, text)) == [text]
    ensures MessageRole(Envelope(id, text)) == Some(JStr("user"))
    ensures TaskId(Envelope(id, text)) == Prop(Some(Envelope(id, text)), "id") == Some(JStr(id))
  {
    assert PartTexts([TextPart(text)]) == [text] + PartTexts([]);
  }

  /** `data?.result?.artifacts?.[0]?.parts?.[0]?.text`. */
  function ArtifactText(data: Json): Option<Json> {
    Prop(First(Prop(First(Prop(Prop(Some(data), "result"), "artifacts")), "parts")), "text")
  }

  /** `data?.result?.message?.parts?.[0]?.text`. */
  function MessageReplyText(data: Json): Option<Json> {
    Prop(First(Prop(Prop(Prop(Some(data), "result"), "message"), "parts")), "text")
  }

  /** The `aiText` of the reply: the first artifact's first part's text if
      truthy, else the message's first part's text if truthy, else the
      fallback. It is never falsy, but need not be a string: the agent
      decides what `text` holds. */
  function ReplyText(data: Json): (t: Json)
    ensures Truthy(ArtifactText(data)) ==> t == ArtifactText(data).value
    ensures !Truthy(ArtifactText(data)) && Truthy(MessageReplyText(data)) ==> t == MessageReplyText(data).value
    ensures !Truthy(ArtifactText(data)) && !Truthy(MessageReplyText(data)) ==> t == JStr(NoResponseText)
    ensures Truthy(Some(t))
  {
    if Truthy(ArtifactText(data)) then ArtifactText(data).value
    else if Truthy(MessageReplyText(data)) then MessageReplyText(data).value
    else JStr(NoResponseText)
  }

  /** An A2A task result carrying one artifact with one text part. */
  function ArtifactReply(text: string): Json {
    JObj(map["result" := JObj(map["artifacts" := JArr([JObj(map["parts" := JArr([TextPart(text)])])])])])
  }

  /** An A2A task result carrying a status message with one text part. */
  function MessageReply(text: string): Json {
    JObj(map["result" := JObj(map["message" := JObj(map["parts" := JArr([TextPart(text)])])])])
  }

  /** A result carrying both an artifact and a message. */
  function BothReply(artifact: string, message: string): Json {
    JObj(map["result" := JObj(map[
      "artifacts" := JArr([JObj(map["parts" := JArr([TextPart(artifact)])])]),
      "message" := JObj(map["parts" := JArr([TextPart(message)])])])])
  }

  /** A non-empty artifact text is extracted; an empty one falls through
      to the fallback. */
  lemma ArtifactReplyText(artifact: string)
    ensures artifact != "" ==> ReplyText(ArtifactReply(artifact)) == JStr(artifact)
    ensures artifact == "" ==> ReplyText(ArtifactReply(artifact)) == JStr(NoResponseText)
  {
    var d := ArtifactReply(artifact);
    assert ArtifactText(d) == Some(JStr(artifact));
    assert MessageReplyText(d) == None;
  }

  /** A non-empty status message text is extracted. */
  lemma MessageReplyTextExtracted(message: string)
    requires message != ""
    ensures ReplyText(MessageReply(message)) == JStr(message)
  {
    var d := MessageReply(message);
    assert ArtifactText(d) == None;
    assert MessageReplyText(d) == Some(JStr(message));
  }

  /** An artifact text wins over a message text, unless it is empty. */
  lemma ArtifactBeforeMessage(artifact: string, message: string)
    requires message != ""
    ensures artifact != "" ==> ReplyText(BothReply(artifact, message)) == JStr(artifact)
    ensures artifact == "" ==> ReplyText(BothReply(artifact, message)) == JStr(message)
  {
    var d := BothReply(artifact, message);
    assert ArtifactText(d) == Some(JStr(artifact));
    assert MessageReplyText(d) == Some(JStr(message));
  }

  /** A reply with no result gets the fallback text. */
  lemma EmptyReplyText()
    ensures ReplyText(JObj(map[])) == JStr(NoResponseText)
  {
  }

  /** `POST /api/otf-chat`. `secret` and `agentUrl` are the configured
      password and agent URL (the module refuses to load without them),
      `now` is `Date.now()`, `request` the parsed request body and `agent`
      what the agent call led to. */
  function Handle(secret: string, agentUrl: string, now: nat, request: Body, agent: Upstream): (x: Exchange)
    requires secret != "" && agentUrl != ""
    ensures x.response.status in {200, 400, 401, 500}
    ensures x.response.status == 401 <==>
      request.Body? && request.json != JNull && !Authorized(secret, Field(request.json, "password"))
    ensures x.response.status == 401 ==> x.response.body == ErrorBody(UnauthorizedError)
    ensures x.response.status == 400 <==>
      && request.Body? && request.json != JNull && Authorized(secret, Field(request.json, "password"))
      && !ValidMessage(Field(request.json, "message"))
    ensures x.response.status == 400 ==> x.response.body == ErrorBody(MessageRequiredError)
    ensures x.call.Some? <==>
      && request.Body? && request.json != JNull && Authorized(secret, Field(request.json, "password"))
      && ValidMessage(Field(request.json, "message"))
    ensures x.call.Some? ==>
      x.call.value == Call(Post, agentUrl,
                           Some(Envelope(NatToString(now), Field(request.json, "message").value.s)), None)
    ensures x.response.status == 200 <==> x.call.Some? && agent.Replied? && agent.payload.Parsed?
    ensures x.response.status == 200 ==>
      x.response.body == JObj(map["aiText" := ReplyText(agent.payload.json), "raw" := agent.payload.json])
    ensures x.response.status == 500 ==> x.response.body == ErrorBody(AgentFailureError)
  {
    match request
    case Malformed(_) => Exchange(None, Response(500, ErrorBody(AgentFailureError)))
    case Body(json) =>
      if json == JNull then
        // destructuring `null` throws a TypeError
        Exchange(None, Response(500, ErrorBody(AgentFailureError)))
      else if !Authorized(secret, Field(json, "password")) then
        Exchange(None, Response(401, ErrorBody(UnauthorizedError)))
      else if !ValidMessage(Field(json, "message")) then
        Exchange(None, Response(400, ErrorBody(MessageRequiredError)))
      else
        var call := Call(Post, agentUrl, Some(Envelope(NatToString(now), Field(json, "message").value.s)), None);
        var response :=
          match agent
          case Replied(_, Parsed(data)) =>
            // `response.ok` is not consulted: an error status with a JSON body
            // is relayed like a success
            Response(200, JObj(map["aiText" := ReplyText(data), "raw" := data]))
          case _ => Response(500, ErrorBody(AgentFailureError));
        Exchange(Some(call), response)
  }

  /** The password is checked before the message: a wrong or missing
      password is refused whatever the message. */
  lemma PasswordCheckedFirst(secret: string, agentUrl: string, now: nat, password: Option<Json>,
                             message: Option<Json>, agent: Upstream)
    requires secret != "" && agentUrl != ""
    requires password != Some(JStr(secret))
    ensures var fields := (if password.Some? then map["password" := password.value] else map[])
                          + (if message.Some? then map["message" := message.value] else map[]);
            Handle(secret, agentUrl, now, Body(JObj(fields)), agent) == Exchange(None, Response(401, ErrorBody(UnauthorizedError)))
  {
    var fields := (if password.Some? then map["password" := password.value] else map[])
                  + (if message.Some? then map["message" := message.value] else map[]);
    assert Field(JObj(fields), "password") == password;
  }

  /** An agent error status with a JSON body still produces a 200 reply. */
  lemma ErrorStatusIsRelayed(secret: string, agentUrl: string, now: nat, text: string, data: Json)
    requires secret != "" && agentUrl != "" && text != ""
    ensures var request := Body(JObj(map["password" := JStr(secret), "message" := JStr(text)]));
            Handle(secret, agentUrl, now, request, Replied(502, Parsed(data))).response.status == 200
  {
  }
}

=== FILE: psychology_backends.dfy ===
/** The two EC2-hosted psychology backends both psychology routes relay to. */
module PsychologyBackends {
  import opened Numbers

  const Ec2BaseUrl: string := "http://ec2-54-91-100-129.compute-1.amazonaws.com"

  /** The research assistant's port. */
  const ResearchPort: nat := 8000

  /** The resources assistant's port. */
  const ResourcesPort: nat := 10000

  /** `${EC2_BASE_URL}:${port}${route}`. */
  function BackendUrl(port: nat, route: string): string {
    Ec2BaseUrl + ":" + NatToString(port) + route
  }

  /** The two ports render as "8000" and "10000". */
  lemma PortStrings()
    ensures NatToString(ResearchPort) == "8000"
    ensures NatToString(ResourcesPort) == "10000"
  {
    assert NatToString(1) == "1";
    assert NatToString(10) == "10";
    assert NatToString(100) == "100";
    assert NatToString(1000) == "1000";
    assert NatToString(10000) == "10000";
    assert NatToString(8) == "8";
    assert NatToString(80) == "80";
    assert NatToString(800) == "800";
    assert NatToString(8000) == "8000";
  }

  /** The two backends have different URLs for every route. */
  lemma BackendUrlsDistinct(route: string)
    ensures BackendUrl(ResearchPort, route) != BackendUrl(ResourcesPort, route)
  {
    PortStrings();
    assert |BackendUrl(ResearchPort, route)| + 1 == |BackendUrl(ResourcesPort, route)|;
  }
}

=== FILE: psychology_chat.dfy ===
/** The psychology chat relay (`POST /api/psychology/chat`): validates the
    message and backend port, forwards the message to the chosen backend's
    `/chat` with a 30-second timeout, and relays the backend's JSON. */
module PsychologyChat {
  import opened Wrappers
  import opened Json
  import opened Numbers
  import opened Http
  import opened PsychologyBackends

  const ChatTimeoutMs: nat := 30000
  const InvalidParametersError: string := "Invalid parameters. Message and port (8000 or 10000) are required."
  const ChatFailedError: string := "Chat request failed"

  /** `message` is truthy and `port` is strictly the number 8000 or 10000
      (the string "8000" does not pass). */
  predicate ValidParams(message: Option<Json>, port: Option<Json>) {
    Truthy(message) && Truthy(port) && (port == Some(JNum(8000.0)) || port == Some(JNum(10000.0)))
  }

  /** The backend a valid `port` selects. */
  function TargetPort(port: Option<Json>): (p: nat)
    requires port == Some(JNum(8000.0)) || port == Some(JNum(10000.0))
    ensures p == ResearchPort || p == ResourcesPort
    ensures port == Some(JNum(p as real))
  {
    if port == Some(JNum(8000.0)) then ResearchPort else ResourcesPort
  }

  function ChatUrl(port: nat): string {
    BackendUrl(port, "/chat")
  }

  /** The body sent to the backend; `resetMemory` defaults to `false` only
      when it is absent (an explicit `null` is forwarded as is). */
  function ForwardedBody(message: Json, resetMemory: Option<Json>): Json {
    JObj(map["message" := message, "reset_memory" := resetMemory.GetOr(JBool(false))])
  }

  /** `{ error: 'Chat request failed', details }`. */
  function FailureBody(details: string): Json {
    JObj(map["error" := JStr(ChatFailedError), "details" := JStr(details)])
  }

  /** The backend reads back the message and the effective reset flag. */
  lemma ForwardedBodyRoundTrip(message: Json, resetMemory: Option<Json>)
    ensures Field(ForwardedBody(message, resetMemory), "message") == Some(message)
    ensures resetMemory.Some? ==> Field(ForwardedBody(message, resetMemory), "reset_memory") == resetMemory
    ensures resetMemory.None? ==> Field(ForwardedBody(message, resetMemory), "reset_memory") == Some(JBool(false))
  {
  }

  /** `POST /api/psychology/chat`. `request` is the parsed request body,
      `nullBodyError` the message of the TypeError that destructuring a
      `null` body raises (its wording belongs to the JavaScript engine), and
      `upstream` what the backend call led to. */
  function Handle(request: Body, nullBodyError: string, upstream: Upstream): (x: Exchange)
    ensures x.response.status in {200, 400, 500}
    ensures x.response.status == 400 <==>
      request.Body? && request.json != JNull
      && !ValidParams(Field(request.json, "message"), Field(request.json, "port"))
    ensures x.response.status == 400 ==> x.response.body == ErrorBody(InvalidParametersError)
    ensures x.call.Some? <==>
      request.Body? && request.json != JNull
      && ValidParams(Field(request.json, "message"), Field(request.json, "port"))
    ensures x.call.Some? ==>
      var port := TargetPort(Field(request.json, "port"));
      && Field(request.json, "port") == Some(JNum(port as real))
      && x.call.value == Call(Post, ChatUrl(port),
                              Some(ForwardedBody(Field(request.json, "message").value,
                                                 Field(request.json, "resetMemory"))),
                              Some(ChatTimeoutMs))
    ensures x.response.status == 200 <==>
      x.call.Some? && upstream.Replied? && IsOk(upstream.status) && upstream.payload.Parsed?
    ensures x.response.status == 200 ==> x.response.body == upstream.payload.json
    ensures request.Malformed? ==> x.response == Response(500, FailureBody(Details(request.error)))
    ensures request == Body(JNull) ==> x.response == Response(500, FailureBody(nullBodyError))
    ensures x.call.Some? && upstream.FetchThrew? ==>
      x.response == Response(500, FailureBody(Details(upstream.error)))
    ensures x.call.Some? && upstream.Replied? && !IsOk(upstream.status) ==>
      x.response == Response(500, FailureBody(HttpErrorMessage(upstream.status)))
    ensures x.call.Some? && upstream.Replied? && IsOk(upstream.status) && upstream.payload.Unparsable? ==>
      x.response == Response(500, FailureBody(Details(upstream.payload.error)))
  {
    match request
    case Malformed(e) => Exchange(None, Response(500, FailureBody(Details(e))))
    case Body(json) =>
      if json == JNull then
        Exchange(None, Response(500, FailureBody(nullBodyError)))
      else
        var message := Field(json, "message");
        var port := Field(json, "port");
        if !ValidParams(message, port) then
          Exchange(None, Response(400, ErrorBody(InvalidParametersError)))
        else
          var call := Call(Post, ChatUrl(TargetPort(port)),
                           Some(ForwardedBody(message.value, Field(json, "resetMemory"))),
                           Some(ChatTimeoutMs));
          var response :=
            match upstream
            case FetchThrew(e) => Response(500, FailureBody(Details(e)))
            case Replied(status, payload) =>
              if !IsOk(status) then Response(500, FailureBody(HttpErrorMessage(status)))
              else
                match payload
                case Unparsable(e) => Response(500, FailureBody(Details(e)))
                case Parsed(data) => Response(200, data);
          Exchange(Some(call), response)
  }

  /** A port sent as a string is refused without contacting a backend. */
  lemma StringPortRefused(message: Json, port: string, nullBodyError: string, upstream: Upstream)
    ensures var request := Body(JObj(map["message" := message, "port" := JStr(port)]));
            Handle(request, nullBodyError, upstream) == Exchange(None, Response(400, ErrorBody(InvalidParametersError)))
  {
    var request := Body(JObj(map["message" := message, "port" := JStr(port)]));
    assert Field(request.json, "port") == Some(JStr(port));
  }

  /** Port 8000 reaches the research backend's chat endpoint and 10000 the
      resources backend's, each at its literal address. */
  lemma ChatTargets(text: string, nullBodyError: string, upstream: Upstream)
    requires text != ""
    ensures var x := Handle(Body(JObj(map["message" := JStr(text), "port" := JNum(8000.0)])), nullBodyError, upstream);
            x.call.Some? && x.call.value.url == "http://ec2-54-91-100-129.compute-1.amazonaws.com:8000/chat"
    ensures var x := Handle(Body(JObj(map["message" := JStr(text), "port" := JNum(10000.0)])), nullBodyError, upstream);
            x.call.Some? && x.call.value.url == "http://ec2-54-91-100-129.compute-1.amazonaws.com:10000/chat"
  {
    ChatUrls();
    ChatTarget(text, 8000.0, nullBodyError, upstream);
    ChatTarget(text, 10000.0, nullBodyError, upstream);
  }

  /** The two chat URLs, written out. */
  lemma ChatUrls()
    ensures ChatUrl(ResearchPort) == "http://ec2-54-91-100-129.compute-1.amazonaws.com:8000/chat"
    ensures ChatUrl(ResourcesPort) == "http://ec2-54-91-100-129.compute-1.amazonaws.com:10000/chat"
  {
    PortStrings();
  }

  lemma ChatTarget(text: string, port: real, nullBodyError: string, upstream: Upstream)
    requires text != "" && (port == 8000.0 || port == 10000.0)
    ensures var x := Handle(Body(JObj(map["message" := JStr(text), "port" := JNum(port)])), nullBodyError, upstream);
            x.call.Some? && x.call.value.url == ChatUrl(port.Floor)
  {
    var j := JObj(map["message" := JStr(text), "port" := JNum(port)]);
    assert Field(j, "port") == Some(JNum(port));
    assert Field(j, "message") == Some(JStr(text));
    assert ValidParams(Field(j, "message"), Field(j, "port"));
  }
}

=== FILE: psychology_health.dfy ===
/** The psychology backend health probe (`GET /api/psychology/health`):
    validates the `port` query parameter and relays the chosen backend's
    `/health` answer, with a 10-second timeout. */
module PsychologyHealth {
  import opened Wrappers
  import opened Json
  import opened Numbers
  import opened Http
  import opened PsychologyBackends

  const HealthTimeoutMs: nat := 10000
  const InvalidPortError: string := "Invalid port parameter"
  const HealthFailedError: string := "Health check failed"

  /** `searchParams.get('port')` is exactly "8000" or "10000". */
  predicate ValidPort(port: Option<string>) {
    port.Some? && port.value != "" && (port.value == "8000" || port.value == "10000")
  }

  /** The backend a valid `port` parameter selects. */
  function TargetPort(port: Option<string>): (p: nat)
    requires ValidPort(port)
    ensures p == ResearchPort || p == ResourcesPort
    ensures NatToString(p) == port.value
  {
    PortStrings();
    if port.value == "8000" then ResearchPort else ResourcesPort
  }

  function HealthUrl(port: nat): string {
    BackendUrl(port, "/health")
  }

  /** `{ error: 'Health check failed', details, port }`. */
  function FailureBody(details: string, port: nat): Json {
    JObj(map["error" := JStr(HealthFailedError), "details" := JStr(details), "port" := JNum(port as real)])
  }

  /** `GET /api/psychology/health?port=…`. `port` is the query parameter
      (`None` when absent) and `upstream` what the backend call led to. */
  function Handle(port: Option<string>, upstream: Upstream): (x: Exchange)
    ensures x.response.status in {200, 400, 500}
    ensures x.response.status == 400 <==> !ValidPort(port)
    ensures x.response.status == 400 ==> x.response == Response(400, ErrorBody(InvalidPortError))
    ensures x.call.Some? <==> ValidPort(port)
    ensures x.call.Some? ==>
      && IsDigits(port.value)
      && x.call.value == Call(Get, HealthUrl(ParseNat(port.value)), None, Some(HealthTimeoutMs))
    ensures x.response.status == 200 <==>
      ValidPort(port) && upstream.Replied? && IsOk(upstream.status) && upstream.payload.Parsed?
    ensures x.response.status == 200 ==> x.response.body == upstream.payload.json
    ensures x.response.status == 500 ==>
      x.response.body.JObj? && "port" in x.response.body.members
      && x.response.body.members["port"] == JNum(ParseNat(port.value) as real)
    ensures ValidPort(port) && upstream.FetchThrew? ==>
      x.response == Response(500, FailureBody(Details(upstream.error), TargetPort(port)))
    ensures ValidPort(port) && upstream.Replied? && !IsOk(upstream.status) ==>
      x.response == Response(500, FailureBody(HttpErrorMessage(upstream.status), TargetPort(port)))
    ensures ValidPort(port) && upstream.Replied? && IsOk(upstream.status) && upstream.payload.Unparsable? ==>
      x.response == Response(500, FailureBody(Details(upstream.payload.error), TargetPort(port)))
  {
    if !ValidPort(port) then
      Exchange(None, Response(400, ErrorBody(InvalidPortError)))
    else
      var target := TargetPort(port);
      ParseThenRenderPort(port.value);
      var call := Call(Get, HealthUrl(target), None, Some(HealthTimeoutMs));
      var response :=
        match upstream
        case FetchThrew(e) => Response(500, FailureBody(Details(e), target))
        case Replied(status, payload) =>
          if !IsOk(status) then Response(500, FailureBody(HttpErrorMessage(status), target))
          else
            match payload
            case Unparsable(e) => Response(500, FailureBody(Details(e), target))
            case Parsed(data) => Response(200, data);
      Exchange(Some(call), response)
  }

  /** A valid port parameter is a digit string naming the port it selects. */
  lemma ParseThenRenderPort(port: string)
    requires port == "8000" || port == "10000"
    ensures IsDigits(port)
    ensures ParseNat(port) == TargetPort(Some(port))
  {
    PortStrings();
    assert IsDigits(NatToString(TargetPort(Some(port))));
  }

  /** The probe's URL for each valid parameter, written out. */
  lemma HealthTargets(upstream: Upstream)
    ensures Handle(Some("8000"), upstream).call.value.url
            == "http://ec2-54-91-100-129.compute-1.amazonaws.com:8000/health"
    ensures Handle(Some("10000"), upstream).call.value.url
            == "http://ec2-54-91-100-129.compute-1.amazonaws.com:10000/health"
  {
    HealthUrls();
    HealthTarget("8000", upstream);
    HealthTarget("10000", upstream);
  }

  lemma HealthTarget(port: string, upstream: Upstream)
    requires port == "8000" || port == "10000"
    ensures Handle(Some(port), upstream).call.value.url == HealthUrl(TargetPort(Some(port)))
  {
    ParseThenRenderPort(port);
  }

  /** The two health URLs, written out. */
  lemma HealthUrls()
    ensures HealthUrl(ResearchPort) == "http://ec2-54-91-100-129.compute-1.amazonaws.com:8000/health"
    ensures HealthUrl(ResourcesPort) == "http://ec2-54-91-100-129.compute-1.amazonaws.com:10000/health"
  {
    PortStrings();
  }

  /** A port that only looks like a valid one (leading zero, the other
      spelling of a number) is refused without a backend call. */
  lemma NearMissPortsRefused(upstream: Upstream)
    ensures Handle(Some("08000"), upstream) == Exchange(None, Response(400, ErrorBody(InvalidPortError)))
    ensures Handle(Some("8000.0"), upstream) == Exchange(None, Response(400, ErrorBody(InvalidPortError)))
    ensures Handle(None, upstream) == Exchange(None, Response(400, ErrorBody(InvalidPortError)))
  {
    assert "08000" != "8000" && "08000" != "10000" by { assert "08000"[0] == '0'; assert |"08000"| == 5; }
    assert "8000.0" != "8000" && "8000.0" != "10000" by { assert |"8000.0"| == 6; }
  }
}

=== FILE: round_sort.dfy ===
/** The stable sort `Array.prototype.sort` performs with the comparator
    `(a, b) => key(a) - key(b)` (section 23.1.3.30 of ECMA-262, 2023: the
    result is sorted by the comparator, is a permutation of the input, and
    keeps the input order of elements that compare equal). The keys are
    computed before sorting; for the driver history they are parsed round
    numbers. */
module RoundSort {

  datatype Keyed<T> = Keyed(key: nat, item: T)

  /** Keys never decrease from left to right. */
  ghost predicate SortedByKey<T>(s: seq<Keyed<T>>) {
    forall i, j :: 0 <= i < j < |s| ==> s[i].key <= s[j].key
  }

  /** The elements with key k, in their order in s. */
  function WithKey<T>(s: seq<Keyed<T>>, k: nat): (r: seq<Keyed<T>>)
    ensures |r| <= |s|
  {
    if |s| == 0 then []
    else (if s[0].key == k then [s[0]] else []) + WithKey(s[1..], k)
  }

  /** Stability: every group of equal keys keeps its relative order. */
  ghost predicate SameGroups<T>(a: seq<Keyed<T>>, b: seq<Keyed<T>>) {
    forall k :: WithKey(a, k) == WithKey(b, k)
  }

  /** Puts x before the first element whose key is not smaller than x's. */
  function Insert<T>(x: Keyed<T>, s: seq<Keyed<T>>): seq<Keyed<T>> {
    if |s| == 0 || x.key <= s[0].key then [x] + s
    else [s[0]] + Insert(x, s[1..])
  }

  lemma {:induction false} InsertPermutes<T>(x: Keyed<T>, s: seq<Keyed<T>>)
    ensures multiset(Insert(x, s)) == multiset(s) + multiset{x}
    ensures |Insert(x, s)| == |s| + 1
  {
    if |s| > 0 && s[0].key < x.key {
      InsertPermutes(x, s[1..]);
      assert s == [s[0]] + s[1..];
    }
  }

  lemma {:induction false} InsertSorted<T>(x: Keyed<T>, s: seq<Keyed<T>>)
    requires SortedByKey(s)
    ensures SortedByKey(Insert(x, s))
  {
    if |s| > 0 && s[0].key < x.key {
      InsertSorted(x, s[1..]);
      InsertPermutes(x, s[1..]);
      var t := Insert(x, s[1..]);
      forall j | 0 <= j < |t| ensures s[0].key <= t[j].key {
        assert t[j] in multiset(t);
        if t[j] != x {
          assert t[j] in multiset(s[1..]);
          var m :| 0 <= m < |s[1..]| && s[1..][m] == t[j];
          assert s[1 + m] == t[j];
        }
      }
    }
  }

  lemma {:induction false} InsertGroups<T>(x: Keyed<T>, s: seq<Keyed<T>>, k: nat)
    ensures WithKey(Insert(x, s), k) == (if x.key == k then [x] else []) + WithKey(s, k)
  {
    if |s| == 0 || x.key <= s[0].key {
      assert ([x] + s)[1..] == s;
    } else {
      InsertGroups(x, s[1..], k);
      assert ([s[0]] + Insert(x, s[1..]))[1..] == Insert(x, s[1..]);
      if s[0].key == k {
        assert x.key != k;
      }
    }
  }

  /** Insertion sort from the right. It meets the ECMA-262 contract: sorted
      by key, a permutation of the input, and stable. */
  function Sort<T>(s: seq<Keyed<T>>): (r: seq<Keyed<T>>)
    ensures SortedByKey(r)
    ensures multiset(r) == multiset(s)
    ensures |r| == |s|
    ensures SameGroups(r, s)
  {
    if |s| == 0 then []
    else
      var rest := Sort(s[1..]);
      assert s == [s[0]] + s[1..];
      InsertKeepsContract(s[0], rest, s[1..]);
      Insert(s[0], rest)
  }

  /** Inserting x into a sorted arrangement of t gives a sorted arrangement
      of x followed by t. */
  lemma InsertKeepsContract<T>(x: Keyed<T>, rest: seq<Keyed<T>>, t: seq<Keyed<T>>)
    requires SortedByKey(rest) && multiset(rest) == multiset(t) && |rest| == |t| && SameGroups(rest, t)
    ensures SortedByKey(Insert(x, rest))
    ensures multiset(Insert(x, rest)) == multiset([x] + t)
    ensures |Insert(x, rest)| == |t| + 1
    ensures SameGroups(Insert(x, rest), [x] + t)
  {
    InsertSorted(x, rest);
    InsertPermutes(x, rest);
    forall k ensures WithKey(Insert(x, rest), k) == WithKey([x] + t, k) {
      InsertGroups(x, rest, k);
      assert ([x] + t)[1..] == t;
    }
  }

  /** Sorting an already sorted sequence changes nothing. */
  lemma {:induction false} SortSortedIsIdentity<T>(s: seq<Keyed<T>>)
    requires SortedByKey(s)
    ensures Sort(s) == s
  {
    if |s| > 0 {
      SortSortedIsIdentity(s[1..]);
      assert s == [s[0]] + s[1..];
    }
  }

  /** Re-sorting the sorted sequence gives it back. */
  lemma SortIdempotent<T>(s: seq<Keyed<T>>)
    ensures Sort(Sort(s)) == Sort(s)
  {
    SortSortedIsIdentity(Sort(s));
  }

  lemma {:induction false} WithKeyMembers<T>(s: seq<Keyed<T>>, k: nat, y: Keyed<T>)
    ensures y in WithKey(s, k) <==> y in s && y.key == k
  {
    if |s| > 0 {
      WithKeyMembers(s[1..], k, y);
      assert s == [s[0]] + s[1..];
    }
  }

  lemma {:induction false} WithKeyAppend<T>(a: seq<Keyed<T>>, b: seq<Keyed<T>>, k: nat)
    ensures WithKey(a + b, k) == WithKey(a, k) + WithKey(b, k)
  {
    if |a| == 0 {
      assert a + b == b;
    } else {
      var h := if a[0].key == k then [a[0]] else [];
      assert WithKey(a + b, k) == h + WithKey(a[1..] + b, k) by {
        assert (a + b)[0] == a[0];
        assert (a + b)[1..] == a[1..] + b;
      }
      WithKeyAppend(a[1..], b, k);
      assert h + (WithKey(a[1..], k) + WithKey(b, k)) == (h + WithKey(a[1..], k)) + WithKey(b, k);
    }
  }

  /** The ECMA-262 contract determines the result: two sorted sequences
      with the same stable groups are equal. So whatever algorithm an
      engine uses, its result is `Sort`'s. */
  lemma {:induction false} StableSortIsUnique<T>(a: seq<Keyed<T>>, b: seq<Keyed<T>>)
    requires SortedByKey(a) && SortedByKey(b)
    requires SameGroups(a, b)
    ensures a == b
  {
    if |a| == 0 && |b| == 0 {
    } else if |a| == 0 {
      assert false;
    } else if |b| == 0 {
      WithKeyMembers(a, a[0].key, a[0]);
      assert false;
    } else {
      var ka, kb := a[0].key, b[0].key;
      if ka < kb {
        WithKeyMembers(a, ka, a[0]);
        assert WithKey(a, ka) == WithKey(b, ka);
        var y := WithKey(b, ka)[0];
        WithKeyMembers(b, ka, y);
        assert false;
      }
      if kb < ka {
        WithKeyMembers(b, kb, b[0]);
        assert WithKey(a, kb) == WithKey(b, kb);
        var y := WithKey(a, kb)[0];
        WithKeyMembers(a, kb, y);
        assert false;
      }
      assert WithKey(a, ka) == WithKey(b, ka);
      assert a[0] == b[0];
      forall k ensures WithKey(a[1..], k) == WithKey(b[1..], k) {
        var head := if a[0].key == k then [a[0]] else [];
        assert WithKey(a, k) == head + WithKey(a[1..], k);
        assert WithKey(b, k) == head + WithKey(b[1..], k);
        assert WithKey(a, k) == WithKey(b, k);
        assert (head + WithKey(a[1..], k))[|head|..] == WithKey(a[1..], k);
        assert (head + WithKey(b[1..], k))[|head|..] == WithKey(b[1..], k);
      }
      StableSortIsUnique(a[1..], b[1..]);
      assert a == [a[0]] + a[1..] && b == [b[0]] + b[1..];
    }
  }
}

=== FILE: team_colors.dfy ===
/** The constructor-colour table of the F1 client and its lookup
    (`TEAM_COLORS` and `getTeamColor` in app/lib/f1.ts). */
module TeamColors {

  /** The colour given to every constructor the table does not know. */
  const DefaultColor: string := "#666666"

  /** The 2024 team colours, keyed by lower-case constructor id. */
  const Palette: map<string, string> := map[
    "red_bull" := "#3671C6",
    "ferrari" := "#F91536",
    "mercedes" := "#6CD3BF",
    "mclaren" := "#F58020",
    "aston_martin" := "#358C75",
    "alpine" := "#2293D1",
    "williams" := "#37BEDD",
    "rb" := "#5E8FAA",
    "stake" := "#C92D4B",
    "haas" := "#B6BABD"
  ]

  predicate IsHexDigit(c: char) {
    '0' <= c <= '9' || 'A' <= c <= 'F' || 'a' <= c <= 'f'
  }

  /** A CSS colour of the form #RRGGBB. */
  predicate IsHexColor(s: string) {
    |s| == 7 && s[0] == '#' && forall i :: 1 <= i < 7 ==> IsHexDigit(s[i])
  }

  /** `toLowerCase` on one character, restricted to the mappings that can
      produce an ASCII character: A-Z, and the KELVIN SIGN, which lower-cases
      to 'k'. Every other character is kept. */
  function LowerChar(c: char): char {
    if 'A' <= c <= 'Z' then (c as int + 32) as char
    else if c == '\U{212A}' then 'k'
    else c
  }

  function Lower(s: string): (r: string)
    ensures |r| == |s|
    ensures forall i :: 0 <= i < |s| ==> r[i] == LowerChar(s[i])
  {
    if |s| == 0 then [] else [LowerChar(s[0])] + Lower(s[1..])
  }

  /** Lower-casing twice is lower-casing once. */
  lemma LowerIdempotent(s: string)
    ensures Lower(Lower(s)) == Lower(s)
  {
    assert forall i :: 0 <= i < |s| ==> LowerChar(LowerChar(s[i])) == LowerChar(s[i]);
  }

  /** `getTeamColor`: the table colour of the lower-cased id, else the default.
      Every result is a #RRGGBB colour, and the default is given exactly to
      the ids the table does not know. */
  function TeamColor(constructorId: string): (c: string)
    ensures IsHexColor(c)
    ensures c == DefaultColor <==> Lower(constructorId) !in Palette
    ensures Lower(constructorId) in Palette ==> c == Palette[Lower(constructorId)]
  {
    var key := Lower(constructorId);
    if key in Palette then Palette[key] else DefaultColor
  }

  /** The lookup ignores case: an id and its lower-cased form get the same colour. */
  lemma {:induction false} TeamColorIgnoresCase(constructorId: string)
    ensures TeamColor(constructorId) == TeamColor(Lower(constructorId))
  {
    LowerIdempotent(constructorId);
  }

  /** The colour of an id whose lower-cased form is a table key. */
  lemma ColorOfKey(constructorId: string, key: string)
    requires Lower(constructorId) == key && key in Palette
    ensures TeamColor(constructorId) == Palette[key]
  {
  }

  /** "Ferrari", "FERRARI" and "ferrari" all get Ferrari red. */
  lemma FerrariInAnyCase()
    ensures TeamColor("Ferrari") == "#F91536"
    ensures TeamColor("FERRARI") == "#F91536"
    ensures TeamColor("ferrari") == "#F91536"
  {
    var key := "ferrari";
    assert key in Palette && Palette[key] == "#F91536";
    LowerFerrari("Ferrari");
    LowerFerrari("FERRARI");
    LowerFerrari("ferrari");
    ColorOfKey("Ferrari", key);
    ColorOfKey("FERRARI", key);
    ColorOfKey("ferrari", key);
  }

  lemma LowerFerrari(s: string)
    requires s == "Ferrari" || s == "FERRARI" || s == "ferrari"
    ensures Lower(s) == "ferrari"
  {
    var r := Lower(s);
    assert |r| == 7;
    assert r[0] == 'f' && r[1] == 'e' && r[2] == 'r' && r[3] == 'r';
    assert r[4] == 'a' && r[5] == 'r' && r[6] == 'i';
  }

  // The source indexes a plain object literal, so a key that is not one of
  // the ten own properties can still find a member inherited from
  // Object.prototype. The functions below model that lookup as written.

  /** Names of the members every plain object inherits from Object.prototype. */
  const ObjectPrototypeMembers: set<string> := {
    "constructor", "__proto__", "__defineGetter__", "__defineSetter__",
    "__lookupGetter__", "__lookupSetter__", "hasOwnProperty", "isPrototypeOf",
    "propertyIsEnumerable", "toLocaleString", "toString", "valueOf"
  }

  /** What `TEAM_COLORS[key] || '#666666'` evaluates to: a colour string, or
      an inherited (truthy) Object.prototype member. */
  datatype ColorValue = Hex(color: string) | Inherited(member: string)

  /** `getTeamColor` as written. Away from the inherited member names it
      agrees with `TeamColor`. */
  function TeamColorAsWritten(constructorId: string): (v: ColorValue)
    ensures Lower(constructorId) !in ObjectPrototypeMembers ==> v == Hex(TeamColor(constructorId))
  {
    var key := Lower(constructorId);
    if key in Palette then Hex(Palette[key])
    else if key in ObjectPrototypeMembers then Inherited(key)
    else Hex(DefaultColor)
  }

  /** No lower-cased string has an upper-case ASCII letter. */
  predicate NoUpper(s: string) {
    forall i :: 0 <= i < |s| ==> !('A' <= s[i] <= 'Z')
  }

  /** Ten of the inherited member names carry an upper-case letter. */
  lemma MixedCaseMembers()
    ensures !NoUpper("__defineGetter__") && !NoUpper("__defineSetter__")
    ensures !NoUpper("__lookupGetter__") && !NoUpper("__lookupSetter__")
    ensures !NoUpper("hasOwnProperty") && !NoUpper("isPrototypeOf")
    ensures !NoUpper("propertyIsEnumerable") && !NoUpper("toLocaleString")
    ensures !NoUpper("toString") && !NoUpper("valueOf")
  {
    assert "__defineGetter__"[8] == 'G' && "__defineSetter__"[8] == 'S';
    assert "__lookupGetter__"[8] == 'G' && "__lookupSetter__"[8] == 'S';
    assert "hasOwnProperty"[3] == 'O' && "isPrototypeOf"[2] == 'P';
    assert "propertyIsEnumerable"[8] == 'I' && "toLocaleString"[2] == 'L';
    assert "toString"[2] == 'S' && "valueOf"[5] == 'O';
  }

  /** Only two of the inherited member names are all lower case. */
  lemma LowerCaseMembers(key: string)
    requires key in ObjectPrototypeMembers && NoUpper(key)
    ensures key == "constructor" || key == "__proto__"
  {
    MixedCaseMembers();
  }

  /** Exactly two ids (up to case) reach an inherited member: "constructor"
      and "__proto__". */
  lemma InheritedHits(constructorId: string)
    ensures TeamColorAsWritten(constructorId).Inherited?
        <==> Lower(constructorId) == "constructor" || Lower(constructorId) == "__proto__"
  {
    var key := Lower(constructorId);
    assert NoUpper(key);
    if key in ObjectPrototypeMembers {
      LowerCaseMembers(key);
    }
    assert "constructor" !in Palette && "__proto__" !in Palette;
    assert "constructor" in ObjectPrototypeMembers && "__proto__" in ObjectPrototypeMembers;
  }

  /** The counterexample: the id "Constructor" gets Object's constructor
      function instead of the default colour. */
  lemma ConstructorIdIsNotDefault()
    ensures TeamColorAsWritten("Constructor") == Inherited("constructor")
    ensures TeamColorAsWritten("Constructor") != Hex(DefaultColor)
    ensures TeamColor("Constructor") == DefaultColor
  {
    LowerConstructor();
    PaletteKeyLengths();
    assert |"constructor"| == 11;
    assert "constructor" in ObjectPrototypeMembers;
  }

  /** No table key has eleven characters. */
  lemma PaletteKeyLengths()
    ensures forall k :: k in Palette ==> |k| != 11
  {
  }

  /** Lower-casing works character by character. */
  lemma LowerAppend(a: string, b: string)
    ensures Lower(a + b) == Lower(a) + Lower(b)
  {
  }

  /** A string of lower-case ASCII letters is its own lower-cased form. */
  lemma LowerKeepsLowerCase(s: string)
    requires forall i :: 0 <= i < |s| ==> 'a' <= s[i] <= 'z'
    ensures Lower(s) == s
  {
  }

  lemma LowerConstructor()
    ensures Lower("Constructor") == "constructor"
  {
    ConstructorSpelling();
    LowerAppend("C", "onstructor");
    LowerKeepsLowerCase("onstructor");
    assert Lower("C") == "c";
  }

  /** "Constructor" and "constructor" differ in their first letter only. */
  lemma ConstructorSpelling()
    ensures "Constructor" == "C" + "onstructor" && "constructor" == "c" + "onstructor"
    ensures forall i :: 0 <= i < |"onstructor"| ==> 'a' <= "onstructor"[i] <= 'z'
  {
  }
}

=== FILE: wrappers.dfy ===
/** Optional values. `None` stands for JavaScript's `undefined` in an optional
    field of a validated record or of a domain object. */
module Wrappers {

  datatype Option<+T> = None | Some(value: T) {

    /** The wrapped value, or `default` when there is none. */
    function GetOr(default: T): T {
      match this
      case Some(v) => v
      case None => default
    }
  }
}
